=== FILE: README.md ===
# skillsctl core, modelled in Dafny

`skillsctl` manages a project's "skills". A skill is a directory in a shared git
repository. The project mounts that repository as a sparse-checkout submodule under
`.claude/skills`. This model covers the logic that does not depend on git or on the
file system:

- **The skill catalog** (`catalog/skills.json`), in module `SkillCatalog`:
  - loading the decoded JSON array;
  - skipping malformed entries;
  - lookup by id, where the last duplicate wins.
- **The scored search behind `skillsctl suggest`**, in module `Suggestion`:
  - query tokenising;
  - id, alias and token scoring;
  - ordering by score descending, then id ascending;
  - Python slice semantics for the limit.
- **The manifest `.claude/skills.manifest`**, in module `SkillManifest`:
  - parsing with comments and blank lines skipped;
  - saving with the two header comments and the ids sorted;
  - its set operations.
- **Configuration resolution**, in module `RepoConfig`:
  - environment variables and then the project config file;
  - the missing-URL error;
  - what is saved back.
- **The decisions inside `install`, `remove`, `set` and `sync`**, in module `Commands`:
  - validation against the catalog;
  - which ids are new or selected;
  - the add/remove diff of `set`;
  - the confirmation prompt;
  - the path list given to `git sparse-checkout set`;
  - when the manifest is saved and what exit code results;
  - the one-line description that `catalog` and `suggest` print.

Shared pieces live in three small modules:

- `Wrappers` provides `Option` and `Result`.
- `Json` holds the decoded JSON values and Python truthiness.
- `Text` provides:
  - ASCII `lower` and `strip`;
  - substring and prefix tests;
  - `re.split`/`str.split` as `Split`, with `Join` as its inverse;
  - lexicographic string order.

Python objects that are mutated in place become values here:

- `Manifest.add` returns a new manifest.
- A command returns an `Outcome`. It holds the exit code, the path list it handed to
  git (if any) and the manifest it saved (if any).

What the user types at the prompt is an input, `Confirmation`. So is whether the git
call succeeded, `sparseOk`.

The docstring of `Config.load` says that environment variables take priority over the
config file. The code does this only for the URL: a `branch` key in the file overrides
`SKILLS_REPO_BRANCH`. The model follows the code, and `RepoConfig.FileBranchWins` states
this behaviour.

## Model

| member | source | states |
|---|---|---|
| Text.Lower | src/skillsctl/catalog.py:134 | lower-casing keeps the length, maps each ASCII capital to its small letter (+32) and leaves every other character alone |
| Text.LowerIdempotent | src/skillsctl/catalog.py:142 | lower-casing an already lower-cased string changes nothing, so scoring `Lower(id)` against a lower-cased query is stable |
| Text.Strip | src/skillsctl/manifest.py:36 | `str.strip` returns a contiguous piece of the line whose first and last characters are not whitespace, and everything cut off is whitespace |
| Text.StripUnchanged | src/skillsctl/manifest.py:36 | a line that neither starts nor ends with whitespace is returned unchanged |
| Text.ContainsIff | src/skillsctl/catalog.py:167 | Python's `token in text` holds exactly when the token occurs at some position of the text |
| Text.LessTotal | src/skillsctl/manifest.py:55 | the string order used by `sorted` is total: of two different strings one comes first |
| Text.LessTransitive | src/skillsctl/manifest.py:55 | the string order is transitive |
| Text.Split | src/skillsctl/catalog.py:136 | splitting always yields at least one piece, and no piece contains a separator |
| Text.SplitJoin | src/skillsctl/manifest.py:53-56 | splitting the join of separator-free pieces gives back exactly those pieces |
| SkillCatalog.ParseEntry | src/skillsctl/catalog.py:89-102 | an array element becomes a skill exactly when it is an object with both "id" and "title"; a string id, title and description are copied; tags, paths and aliases given as arrays are copied element for element, with the same length; a missing description, tags, paths or aliases defaults to "" or [] |
| SkillCatalog.LoadEntries | src/skillsctl/catalog.py:88-103 | the entry loop keeps at most one record per element; which elements and in what order is stated by LoadEntriesSound, LoadSkipsMalformed and LoadAppendsWellFormed |
| SkillCatalog.Load | src/skillsctl/catalog.py:85-105 | a document that is not an array is a `CatalogError`; an array always loads, and never to more skills than it has elements |
| SkillCatalog.LoadEntriesSound | src/skillsctl/catalog.py:88-103 | every loaded skill comes from a well-formed element of the array |
| SkillCatalog.LoadSkipsMalformed | src/skillsctl/catalog.py:90-93 | inserting a malformed element anywhere in the array leaves the loaded catalog unchanged |
| SkillCatalog.LoadAppendsWellFormed | src/skillsctl/catalog.py:95-103 | a well-formed element appended to the array appends its skill to the catalog, in order |
| SkillCatalog.ById | src/skillsctl/catalog.py:61 | the id index holds exactly the ids that occur, each mapped to the last record with that id |
| SkillCatalog.Get | src/skillsctl/catalog.py:107-109 | lookup finds a record exactly when some record has the id, and returns the last such record |
| SkillCatalog.LaterDuplicateWins | src/skillsctl/catalog.py:58-61 | a record appended after others with the same id is the one `get` returns, while `list_all` keeps every record in order |
| SkillCatalog.GetIgnoresAliases | src/skillsctl/catalog.py:107-109 | an id that no record has is not found, whatever the aliases say |
| SkillCatalog.ListAll | src/skillsctl/catalog.py:111-113 | `list_all` returns one entry per loaded record, and every record `get` can return is among them; LaterDuplicateWins shows duplicates are kept in load order |
| Suggestion.Tokens | src/skillsctl/catalog.py:136 | every query token is a non-empty run of ASCII letters and digits |
| Suggestion.TokensAreNonEmptyPieces | src/skillsctl/catalog.py:136 | the tokens are exactly the non-empty pieces of splitting the query at every non-alphanumeric character |
| Suggestion.NameScore | src/skillsctl/catalog.py:144-149 | an id scores 100 exactly when it equals the query, 40 exactly when it only starts with it, and 0 exactly when it does not start with it |
| Suggestion.AliasScoreCounts | src/skillsctl/catalog.py:151-157 | aliases score 100 for each exact match plus 40 for each match that is a prefix only |
| Suggestion.TagHit | src/skillsctl/catalog.py:165-169 | a token earns the tag points exactly when some lower-cased tag contains it (once, however many tags do) |
| Suggestion.TokensScoreCounts | src/skillsctl/catalog.py:159-177 | token points total 20 per token found in a tag, 10 per token in the title and 5 per token in the description |
| Suggestion.ScorePositiveIff | src/skillsctl/catalog.py:141-179 | a score is never negative, and is positive exactly when the id or an alias starts with the query or some token hits a tag, the title or the description |
| Suggestion.EmptyQueryPrefixesEveryId | src/skillsctl/catalog.py:147-149 | with an empty query every non-empty id is a prefix match worth 40 |
| Suggestion.Score | src/skillsctl/catalog.py:141-179 | no contract of its own: the score is the id points plus the alias points plus the token points, stated by NameScore, AliasScoreCounts, TokensScoreCounts and ScorePositiveIff |
| Suggestion.Candidates | src/skillsctl/catalog.py:140-180 | the scored list holds every catalog skill with a positive score, with that score, and nothing else |
| Suggestion.CandidatesMultiplicity | src/skillsctl/catalog.py:140-180 | each scored entry occurs as often as its skill occurs in the catalog when its score is the skill's positive score, otherwise never |
| Suggestion.CandidatesSingle | src/skillsctl/catalog.py:140-180 | a one-skill catalog yields that skill with its score when the score is positive, and nothing otherwise |
| Suggestion.CandidatesConcat | src/skillsctl/catalog.py:140-180 | the scored list is built in catalog order: the candidates of two catalogs joined are those of the first followed by those of the second |
| Suggestion.Insert | src/skillsctl/catalog.py:183 | inserting into a list ordered by score descending, then id ascending, keeps it ordered and adds exactly that element |
| Suggestion.Rank | src/skillsctl/catalog.py:183 | sorting yields a list ordered by score descending, then id ascending, that is a permutation of its input |
| Suggestion.InsertAfterEqualKeys | src/skillsctl/catalog.py:183 | inserting an entry places it after every entry already present with the same score and id, and keeps their order |
| Suggestion.RankIsStable | src/skillsctl/catalog.py:183 | `list.sort` is stable: the entries sharing any one key (score, id) come out in the order they went in |
| Suggestion.WithKeyPrefix | src/skillsctl/catalog.py:185 | cutting a list to a prefix keeps, for every key, a prefix of the entries with that key |
| Suggestion.SliceKeepsKeyOrder | src/skillsctl/catalog.py:183-185 | a slice of the sorted matches holds, for every (score, id), the first entries with that key in catalog order |
| Suggestion.RankedUnique | src/skillsctl/catalog.py:183 | when no two entries share score and id, the sorted order is unique: two sorted permutations are equal |
| Suggestion.SliceTo | src/skillsctl/catalog.py:185 | `xs[:limit]` is a prefix of length min(limit, n) for limit >= 0, and of length max(n + limit, 0) for a negative limit |
| Suggestion.Suggest | src/skillsctl/catalog.py:115-185 | results are ordered, each is a catalog skill with its positive score against the lower-cased query, and no entry occurs more often than among the matches; entries sharing a score and id are the first such matches in catalog order; a non-negative limit caps the length at min(limit, matches), a negative limit drops that many from the end (length max(matches + limit, 0)), and a limit at least the number of matches returns every match |
| Suggestion.PrefixOfPermutationMultiset | src/skillsctl/catalog.py:183-185 | a slice of a reordering of the matches holds each entry at most as often as the matches do |
| Suggestion.SuggestKeepsTopMatches | src/skillsctl/catalog.py:183-185 | every returned match ranks at or before every match the limit cut off |
| Suggestion.SuggestCaseInsensitive | src/skillsctl/catalog.py:134 | the query's case does not change the results |
| Suggestion.SuggestIgnoresCatalogOrder | src/skillsctl/catalog.py:182-185 | with unique ids, reordering the catalog does not change the results (the sort key decides everything) |
| SkillManifest.TranslateNewlines | src/skillsctl/manifest.py:34-35 | text read in universal-newline mode holds no carriage return, and text without one is read unchanged |
| SkillManifest.TranslateCrFreePrefix | src/skillsctl/manifest.py:34-35 | a piece of text without line breaks reads through unchanged in front of whatever follows |
| SkillManifest.TranslateLineEnd | src/skillsctl/manifest.py:34-35 | each of the line ends "\n", "\r\n" and a lone "\r" reads as a single "\n" |
| SkillManifest.TranslateLineThenRest | src/skillsctl/manifest.py:34-35 | a line, any line end and the rest read as the line, one "\n" and the rest read on; a "\r" followed by "\n" is one line end, not two |
| SkillManifest.TranslateJoinedLines | src/skillsctl/manifest.py:34-35 | lines joined by any one of the three line ends read as the same lines joined by "\n" |
| SkillManifest.ReadLinesWithAnyLineEnd | src/skillsctl/manifest.py:34-35 | iterating a file whose lines end in "\n", "\r\n" or "\r" yields exactly its lines |
| SkillManifest.Parse | src/skillsctl/manifest.py:30-42 | a missing file gives the empty manifest; every id read is a stripped, non-empty line that does not start with '#' |
| SkillManifest.ParseEmpty | src/skillsctl/manifest.py:33-42 | an empty file gives the empty manifest |
| SkillManifest.ParseSingleLine | src/skillsctl/manifest.py:34-42 | a file of one line gives that line stripped when it is non-empty and not '#'-led, and nothing otherwise |
| SkillManifest.ParseLineThenRest | src/skillsctl/manifest.py:34-40 | reading a first line, any line end and the rest gives the ids of the first line together with the ids of the rest, so a file's ids are the union of its lines' ids |
| SkillManifest.SortedIds | src/skillsctl/manifest.py:55 | `sorted` of the id set lists exactly its members, each once, in strictly increasing order |
| SkillManifest.Serialize | src/skillsctl/manifest.py:52-56 | when no id contains a newline, the saved text split at newlines is the two header comments, the ids in ascending order, and the empty rest after the final newline |
| SkillManifest.HeadersAreComments | src/skillsctl/manifest.py:53-54 | both header lines are single lines that the reader skips as comments |
| SkillManifest.SavedLinesSplit | src/skillsctl/manifest.py:52-56 | with ids free of newlines, the newline-terminated saved lines split back into those lines plus an empty rest |
| SkillManifest.SaveThenLoad | src/skillsctl/manifest.py:21-56 | saving a manifest whose ids are non-empty, stripped, not '#'-led and free of line breaks, then loading it, gives the same manifest |
| SkillManifest.Add | src/skillsctl/manifest.py:63-65 | after `add` the id is present and every other id is as before |
| SkillManifest.Remove | src/skillsctl/manifest.py:67-69 | after `remove` (a discard) the id is absent and every other id is as before |
| SkillManifest.SetSkills | src/skillsctl/manifest.py:71-73 | after `set_skills` the manifest holds exactly the given ids |
| SkillManifest.SkillIds | src/skillsctl/manifest.py:59-61 | `skill_ids` holds exactly the ids `contains` accepts |
| SkillManifest.Contains | src/skillsctl/manifest.py:75-77 | `contains` is membership |
| SkillManifest.IsEmpty | src/skillsctl/manifest.py:79-81 | `is_empty` holds exactly when no id is present |
| SkillManifest.RemoveAbsentIsNoOp | src/skillsctl/manifest.py:67-69 | removing an absent id changes nothing (no error) |
| SkillManifest.AddThenRemove | src/skillsctl/manifest.py:63-69 | removing a just-added id is the same as removing it from the original |
| SkillManifest.AddPresentIsNoOp | src/skillsctl/manifest.py:63-65 | adding an id already present changes nothing |
| SkillManifest.EmptinessAfterAdd | src/skillsctl/manifest.py:30-31 | a missing manifest file reads as empty, and a manifest with an added id is not empty and contains it |
| RepoConfig.Find | src/skillsctl/config.py:52-55 | `key in data` then `data[key]`: an object answers by key; a list raises when it holds the key as an element, a string when it contains the key as a substring; null, booleans and numbers always raise |
| RepoConfig.Resolve | src/skillsctl/config.py:59-66 | a config is built exactly when the URL is truthy, with the default paths; otherwise the error is the missing-URL `ConfigError` |
| RepoConfig.LoadFrom | src/skillsctl/config.py:52-66 | with a decoded file, a successful load has a truthy URL, and a truthy environment URL is kept whatever the file says; Load and FileBranchWins state the rest |
| RepoConfig.Load | src/skillsctl/config.py:43-66 | a loaded config has a truthy URL and default paths; undecodable bytes are the only uncaught decoding failure; with a missing, unreadable or invalid-JSON file, loading succeeds exactly when `SKILLS_REPO_URL` is non-empty, and then the URL is `SKILLS_REPO_URL` and the branch `SKILLS_REPO_BRANCH` (or "main") |
| RepoConfig.IgnoredFileIsNoFile | src/skillsctl/config.py:56-57 | an unreadable or invalid-JSON file behaves as if there were no file |
| RepoConfig.EnvUrlWins | src/skillsctl/config.py:43-53 | a non-empty `SKILLS_REPO_URL` is the URL, whatever the file's `repo_url` |
| RepoConfig.FileUrlWhenEnvEmpty | src/skillsctl/config.py:52-66 | without the environment URL, loading succeeds exactly when the file has a truthy `repo_url`, which becomes the URL |
| RepoConfig.FileBranchWins | src/skillsctl/config.py:44-55 | the file's `branch` overrides `SKILLS_REPO_BRANCH`; without it the environment value or "main" is used |
| RepoConfig.ListDocumentWithKeyFails | src/skillsctl/config.py:52-55 | a JSON array that lists "branch" as an element makes loading raise instead of resolving |
| RepoConfig.SaveFields | src/skillsctl/config.py:78-81 | the saved document holds exactly `repo_url` and `branch`, with the config's values |
| RepoConfig.SaveThenLoad | src/skillsctl/config.py:43-84 | without `SKILLS_REPO_URL`, loading a saved config with a truthy URL and default paths gives it back |
| RepoConfig.SaveThenLoadWithEnvUrl | src/skillsctl/config.py:43-84 | with `SKILLS_REPO_URL` set, the environment's URL and the saved branch are loaded |
| Commands.Filter | src/skillsctl/commands.py:316-323 | the kept ids are exactly the requested ids the test accepts |
| Commands.Reject | src/skillsctl/commands.py:316-323 | the rejected ids are exactly the requested ids the test refuses |
| Commands.FilterRejectSplit | src/skillsctl/commands.py:316-323 | every requested id lands in exactly one of the two lists, as often as it was requested |
| Commands.Partition | src/skillsctl/commands.py:413-420 | the one-pass loop builds the kept and rejected lists in request order, and together they hold exactly the requested ids |
| Commands.NewIds | src/skillsctl/commands.py:329-336 | the ids install adds are exactly the requested ids not yet installed, each once |
| Commands.NewIdsFacts | src/skillsctl/commands.py:329-340 | nothing is new exactly when every requested id is installed, and the new ids complete the manifest to current plus requested |
| Commands.ValidationFacts | src/skillsctl/commands.py:316-327 | no id is rejected exactly when the catalog knows every requested id, and then every requested id is kept |
| Commands.SelectionFacts | src/skillsctl/commands.py:413-427 | remove selects nothing exactly when no requested id is installed, and removing the selection equals removing all requested ids |
| Commands.Changes | src/skillsctl/commands.py:546-554 | set adds only ids not installed and removes only installed ones; applying both gives the requested set; both are empty exactly when the requested set is the current one |
| Commands.PathsOfMembers | src/skillsctl/commands.py:352-357 | a path is listed exactly when some visited id that the catalog knows lists it |
| Commands.IndexPathsPermutation | src/skillsctl/commands.py:354-357 | the multiset of paths collected does not depend on the order the ids are visited in |
| Commands.SparsePaths | src/skillsctl/commands.py:443-455 | the sparse-checkout list starts with "catalog"; without a catalog it is only "catalog"; otherwise the rest is exactly the paths of installed ids the catalog knows |
| Commands.AnyOrderSamePaths | src/skillsctl/commands.py:450-455 | whatever order Python enumerates the id set in, the same paths are passed, each as often |
| Commands.PathsOf | src/skillsctl/commands.py:352-357 | no contract of its own: PathsOfMembers states which paths are listed and IndexPathsPermutation that the visit order only reorders them |
| Commands.Commit | src/skillsctl/commands.py:359-368 | after setting the paths, a git failure exits 1 without saving, and success saves exactly the new ids and exits 0 |
| Commands.Install | src/skillsctl/commands.py:312-384 | a missing catalog or an unknown id exits 1 and nothing new exits 0, both before git; declining exits 1; paths are set only after confirmation, for the old ids plus the requested ones; the manifest is saved exactly when all ids are known, one is new, the user confirms and git succeeds; the exit code is 0 exactly when it was saved or nothing was new, and 1 otherwise |
| Commands.Remove | src/skillsctl/commands.py:413-480 | no installed id requested exits 0; declining exits 1; paths are set only after confirmation, for the remaining ids, and are "catalog" alone without a catalog; the manifest is saved, minus the requested ids, exactly when one was installed, the user confirms and git succeeds; the exit code is 0 exactly when it was saved or nothing was installed, and 1 otherwise |
| Commands.Set | src/skillsctl/commands.py:529-609 | a missing catalog or an unknown id exits 1 and an unchanged set exits 0; declining exits 1; paths are set only after confirmation, for exactly the requested ids; the manifest is saved as the requested set exactly when it differs, the user confirms and git succeeds; the exit code is 0 exactly when it was saved or nothing changed, and 1 otherwise |
| Commands.SyncPaths | src/skillsctl/commands.py:645-656 | sync lists "catalog" and then exactly the paths of the manifest's ids that the catalog knows; it lists "catalog" alone without a catalog |
| Commands.Proceeds | src/skillsctl/commands.py:342-348 | no contract of its own: the command goes ahead with `--yes` or an answer that lower-cases to "y"; DeclineSavesNothing states what any other answer does |
| Commands.DeclineSavesNothing | src/skillsctl/commands.py:342-569 | in `install`, `remove` and `set`, any answer other than "y" (after lower-casing) saves nothing, and when there was work to do the command exits 1 |
| Commands.GitFailureSavesNothing | src/skillsctl/commands.py:359-585 | in `install`, `remove` and `set`, a failing `git sparse-checkout set` saves nothing and exits 1 |
| Commands.InstallTwiceIsNoOp | src/skillsctl/commands.py:338-340 | repeating a successful install finds everything installed and exits 0 without changes |
| Commands.SetTwiceIsNoOp | src/skillsctl/commands.py:552-554 | repeating a successful set needs no changes and exits 0 |
| Commands.FirstLine | src/skillsctl/commands.py:222 | the first line is a prefix of the text without newline, ending at the first newline or at the end |
| Commands.DisplayDescription | src/skillsctl/commands.py:220-223 | nothing is printed for an empty description; otherwise the printed line is a prefix of at most 80 characters with no newline, cut at 80, at the first newline or at the end |

## Left out

- `git_ops.py` and `cli.py` are not part of this model. Git calls appear only as the success flag `sparseOk`. Argument parsing is not modelled.
- File I/O and JSON text decoding are not modelled. The catalog and config loaders start from the decoded `Json` value; the missing-file and invalid-JSON `CatalogError`s belong to that I/O.
- JSON numbers are exact values (Python's `int` or finite `float`, so `0.0` is falsy like `0`). The `NaN` and `Infinity` extensions of Python's JSON decoder are not represented.
- Python's Unicode `str.lower` and `str.strip` are modelled over ASCII only. This is an assumption about the input: queries, titles and descriptions are free text, and for characters outside ASCII the model's lower-casing and stripping may differ from Python's (Python's `str.lower` can even turn a non-ASCII character into an ASCII letter that then joins a query token).
- SkillCatalog.ParseEntry: Python copies the raw JSON values into `Skill` unchecked. The model reads strings only from JSON strings and lists only from JSON arrays; other value shapes become "" or []. This changes behaviour: in Python a non-string id, title, description, tag or alias makes `suggest` raise when it calls `.lower()` on it, and a non-string id is a `get` key as itself, while the model scores such a record as if the field were "" and files it under the id "".
- Printing and the `input()` prompt are modelled only by their effect on the decision (`Confirmation`). Messages and warnings are not modelled.
- Commands.SparsePaths: Python enumerates the manifest's id set in an unspecified order. The model fixes ascending order; `Commands.AnyOrderSamePaths` shows that the path multiset is the same for every order.
- Submodule creation and initialisation, the dirty-submodule check and `sparse_checkout_init` are git work and are not modelled.
- Loading the catalog from disk (the reload in `install`, `set`, `remove` and `sync`) is I/O. Its result is an input, `Option<Catalog>`: `None` stands for a catalog file that does not exist, which makes `install` and `set` exit 1 and leaves `remove` and `sync` with "catalog" as the only path. A `CatalogError` raised by that reload is not caught by the commands and is not modelled.
- `CommandContext.create` and its `ConfigError` exit are not modelled. The commands start from a loaded config and manifest and the result of the catalog reload.
- `cmd_status` and `cmd_doctor` are not modelled; they consist mostly of git and file-system reporting.
- `--stage` (staging files with git) is not modelled.
- `--json` output (`to_dict`) is not modelled.

=== FILE: catalog.dfy ===
/**
 * The skill catalog (`catalog.py`): skill records, the lenient loader that
 * turns a decoded JSON array into records, and lookup by primary id.
 */
module SkillCatalog {
  import opened Wrappers
  import opened Json

  /** One catalog entry (`Skill`). */
  datatype Skill = Skill(
    id: string,
    title: string,
    description: string,
    tags: seq<string>,
    paths: seq<string>,
    aliases: seq<string>)

  /** The loaded catalog: every kept record, in load order. */
  datatype Catalog = Catalog(skills: seq<Skill>)

  /** `CatalogError` raised by the loader. */
  datatype CatalogError = NotAnArray

  // ---------------------------------------------------------------------------
  // Loading
  // ---------------------------------------------------------------------------

  /** The string held by a decoded value; other shapes read as "". */
  function TextOf(v: Json): string {
    if v.JString? then v.s else ""
  }

  /** The strings held by a decoded array; other shapes read as []. */
  function TextListOf(v: Json): seq<string> {
    if v.JArray? then seq(|v.items|, i requires 0 <= i < |v.items| => TextOf(v.items[i])) else []
  }

  /** A present list field was copied: an array keeps its length and every string element at its index. */
  predicate ListCopied(v: Json, l: seq<string>) {
    v.JArray? ==> |l| == |v.items| && forall i :: 0 <= i < |l| && v.items[i].JString? ==> l[i] == v.items[i].s
  }

  /** The loader's acceptance test: an object that has both an `id` and a `title` key. */
  predicate IsSkillEntry(item: Json) {
    item.JObject? && "id" in item.fields && "title" in item.fields
  }

  /** `fields[key]` when present, `default` otherwise (Python's `dict.get`). */
  function Field(fields: map<string, Json>, key: string, default: Json): Json {
    if key in fields then fields[key] else default
  }

  /** One array element turned into a record, or nothing when the loader skips it. */
  function ParseEntry(item: Json): (r: Option<Skill>)
    ensures r.Some? <==> IsSkillEntry(item)
    ensures r.Some? && item.fields["id"].JString? ==> r.value.id == item.fields["id"].s
    ensures r.Some? && item.fields["title"].JString? ==> r.value.title == item.fields["title"].s
    ensures r.Some? && "description" !in item.fields ==> r.value.description == ""
    ensures r.Some? && "description" in item.fields && item.fields["description"].JString? ==>
              r.value.description == item.fields["description"].s
    ensures r.Some? && "tags" in item.fields ==> ListCopied(item.fields["tags"], r.value.tags)
    ensures r.Some? && "paths" in item.fields ==> ListCopied(item.fields["paths"], r.value.paths)
    ensures r.Some? && "aliases" in item.fields ==> ListCopied(item.fields["aliases"], r.value.aliases)
    ensures r.Some? && "tags" !in item.fields ==> r.value.tags == []
    ensures r.Some? && "paths" !in item.fields ==> r.value.paths == []
    ensures r.Some? && "aliases" !in item.fields ==> r.value.aliases == []
  {
    if !IsSkillEntry(item) then None
    else
      var f := item.fields;
      Some(Skill(
        id := TextOf(f["id"]),
        title := TextOf(f["title"]),
        description := TextOf(Field(f, "description", JString(""))),
        tags := TextListOf(Field(f, "tags", JArray([]))),
        paths := TextListOf(Field(f, "paths", JArray([]))),
        aliases := TextListOf(Field(f, "aliases", JArray([])))))
  }

  /** The records of the accepted elements, in array order. */
  function LoadEntries(items: seq<Json>): (r: seq<Skill>)
    ensures |r| <= |items|
    decreases |items|
  {
    if items == [] then []
    else
      var rest := LoadEntries(items[1..]);
      if IsSkillEntry(items[0]) then [ParseEntry(items[0]).value] + rest else rest
  }

  /** `Catalog.load` after decoding: a non-array document is an error, malformed elements are skipped. */
  function Load(data: Json): (r: Result<Catalog, CatalogError>)
    ensures r.Failure? <==> !data.JArray?
    ensures r.Failure? ==> r.error == NotAnArray
    ensures r.Success? ==> |r.value.skills| <= |data.items|
  {
    if !data.JArray? then Failure(NotAnArray) else Success(Catalog(LoadEntries(data.items)))
  }

  /** Every loaded record is the parse of some accepted element of the array. */
  lemma {:induction false} LoadEntriesSound(items: seq<Json>, s: Skill)
    requires s in LoadEntries(items)
    ensures exists i :: 0 <= i < |items| && IsSkillEntry(items[i]) && ParseEntry(items[i]) == Some(s)
    decreases |items|
  {
    if IsSkillEntry(items[0]) && s == ParseEntry(items[0]).value {
      assert IsSkillEntry(items[0]) && ParseEntry(items[0]) == Some(s);
    } else {
      LoadEntriesSound(items[1..], s);
      var j :| 0 <= j < |items[1..]| && IsSkillEntry(items[1..][j]) && ParseEntry(items[1..][j]) == Some(s);
      assert items[1..][j] == items[j + 1];
    }
  }

  /** Loading distributes over concatenation: each element is kept or skipped on its own, in order. */
  lemma {:induction false} LoadEntriesConcat(a: seq<Json>, b: seq<Json>)
    ensures LoadEntries(a + b) == LoadEntries(a) + LoadEntries(b)
    decreases |a|
  {
    if a == [] {
      assert a + b == b;
    } else {
      LoadEntriesConcat(a[1..], b);
      assert (a + b)[1..] == a[1..] + b;
    }
  }

  /** A single element yields its record when accepted and nothing otherwise. */
  lemma LoadEntriesSingle(x: Json)
    ensures IsSkillEntry(x) ==> LoadEntries([x]) == [ParseEntry(x).value]
    ensures !IsSkillEntry(x) ==> LoadEntries([x]) == []
  {
    assert [x][1..] == [];
  }

  /** A malformed element anywhere in the array leaves the loaded catalog unchanged. */
  lemma LoadSkipsMalformed(a: seq<Json>, bad: Json, b: seq<Json>)
    requires !IsSkillEntry(bad)
    ensures Load(JArray(a + [bad] + b)) == Load(JArray(a + b))
  {
    LoadEntriesConcat(a + [bad], b);
    LoadEntriesConcat(a, [bad]);
    LoadEntriesSingle(bad);
    assert LoadEntries(a + [bad]) == LoadEntries(a);
    LoadEntriesConcat(a, b);
  }

  /** An accepted element appended to the array adds exactly its record at the end. */
  lemma LoadAppendsWellFormed(a: seq<Json>, good: Json)
    requires IsSkillEntry(good)
    ensures Load(JArray(a + [good])) == Success(Catalog(LoadEntries(a) + [ParseEntry(good).value]))
  {
    LoadEntriesConcat(a, [good]);
    LoadEntriesSingle(good);
  }

  // ---------------------------------------------------------------------------
  // Lookup
  // ---------------------------------------------------------------------------

  /** `skills[i]` is the last record whose primary id is `id`. */
  predicate LastWithId(skills: seq<Skill>, id: string, i: int) {
    0 <= i < |skills| && skills[i].id == id && forall j :: i < j < |skills| ==> skills[j].id != id
  }

  /** The position of the last record with primary id `id`, or -1 when there is none. */
  function LastIndex(skills: seq<Skill>, id: string): (r: int)
    ensures r >= 0 ==> LastWithId(skills, id, r)
    ensures r < 0 ==> r == -1 && forall i :: 0 <= i < |skills| ==> skills[i].id != id
    decreases |skills|
  {
    if skills == [] then -1
    else if skills[|skills| - 1].id == id then |skills| - 1
    else LastIndex(skills[..|skills| - 1], id)
  }

  /** The `_by_id` index: each primary id mapped to the record that comes last in load order. */
  function ById(skills: seq<Skill>): (m: map<string, Skill>)
    ensures forall k :: k in m <==> LastIndex(skills, k) >= 0
    ensures forall k :: k in m ==> m[k] == skills[LastIndex(skills, k)]
    decreases |skills|
  {
    if skills == [] then map[]
    else
      var last := skills[|skills| - 1];
      ById(skills[..|skills| - 1])[last.id := last]
  }

  /** `Catalog.get`: exact, case-sensitive lookup on primary ids; with duplicate ids the later record wins. */
  function Get(c: Catalog, id: string): (r: Option<Skill>)
    ensures r.Some? <==> exists i :: 0 <= i < |c.skills| && c.skills[i].id == id
    ensures r.Some? ==> exists i :: LastWithId(c.skills, id, i) && c.skills[i] == r.value
  {
    var m := ById(c.skills);
    if id in m then Some(m[id])
    else
      assert LastIndex(c.skills, id) == -1;
      None
  }

  /** `Catalog.list_all`: every record in load order, duplicates included. */
  function ListAll(c: Catalog): (r: seq<Skill>)
    ensures |r| == |c.skills|
    ensures forall id :: Get(c, id).Some? ==> Get(c, id).value in r
  {
    c.skills
  }

  /**
   * With a duplicate primary id, `get` returns the record loaded later while
   * `list_all` keeps both, in load order.
   */
  lemma LaterDuplicateWins(skills: seq<Skill>, s: Skill)
    ensures Get(Catalog(skills + [s]), s.id) == Some(s)
    ensures ListAll(Catalog(skills + [s])) == ListAll(Catalog(skills)) + [s]
  {
    var all := skills + [s];
    var last := |all| - 1;
    assert all[last] == s;
    assert Get(Catalog(all), s.id).Some?;
    var i :| LastWithId(all, s.id, i) && all[i] == Get(Catalog(all), s.id).value;
    assert all[last].id == s.id && i >= last;
  }

  /** Aliases are never consulted by `get`: a record whose only match is an alias is not found. */
  lemma GetIgnoresAliases(c: Catalog, id: string)
    requires forall i :: 0 <= i < |c.skills| ==> c.skills[i].id != id
    ensures Get(c, id) == None
  {
  }
}

=== FILE: commands.dfy ===
/**
 * The decisions inside the commands (`commands.py`): which requested ids are
 * valid, which are new, what `set` adds and removes, which ids `remove` acts
 * on, the sparse-checkout path list and the one-line description shown by
 * `catalog` and `suggest`.
 *
 * The git calls, the prompt and the printing are not modelled. What they
 * contribute to a decision is an input: the user's answer to the prompt is
 * a `Confirmation`, and whether `git sparse-checkout set` succeeded is the
 * flag `sparseOk`. A command's effect is an `Outcome`: its exit code, the path
 * list it handed to sparse-checkout (if it got that far) and the manifest it
 * saved (if any).
 */
module Commands {
  import opened Wrappers
  import opened Text
  import opened SkillCatalog
  import SkillManifest

  type Manifest = SkillManifest.Manifest

  // ---------------------------------------------------------------------------
  // Filtering and partitioning requested ids
  // ---------------------------------------------------------------------------

  /** The elements of `s` that `keep` accepts, in order. */
  function Filter(s: seq<string>, keep: string -> bool): (r: seq<string>)
    ensures forall x :: x in r <==> x in s && keep(x)
    ensures |r| <= |s|
    decreases |s|
  {
    if s == [] then []
    else
      var init, last := s[..|s| - 1], s[|s| - 1];
      assert s == init + [last];
      Filter(init, keep) + (if keep(last) then [last] else [])
  }

  /** The elements of `s` that `keep` refuses, in order. */
  function Reject(s: seq<string>, keep: string -> bool): (r: seq<string>)
    ensures forall x :: x in r <==> x in s && !keep(x)
    ensures |r| <= |s|
    decreases |s|
  {
    if s == [] then []
    else
      var init, last := s[..|s| - 1], s[|s| - 1];
      assert s == init + [last];
      Reject(init, keep) + (if keep(last) then [] else [last])
  }

  /** The catalog lookup that validates an id: `catalog.get(id)` finds a record. */
  function InCatalog(c: Catalog): string -> bool {
    id => Get(c, id).Some?
  }

  /** The manifest test that selects an id for removal: `manifest.contains(id)`. */
  function Installed(m: Manifest): string -> bool {
    id => id in m.ids
  }

  /** Appending one element to one of two sides keeps their multisets summing to the whole. */
  lemma SplitSnoc(f: seq<string>, r: seq<string>, init: seq<string>, last: string, toF: bool)
    requires multiset(f) + multiset(r) == multiset(init)
    ensures multiset(f + (if toF then [last] else [])) + multiset(r + (if toF then [] else [last]))
            == multiset(init + [last])
  {
  }

  /** Every element goes to exactly one of `Filter` and `Reject`. */
  lemma {:induction false} FilterRejectSplit(s: seq<string>, keep: string -> bool)
    ensures multiset(Filter(s, keep)) + multiset(Reject(s, keep)) == multiset(s)
    decreases |s|
  {
    if s != [] {
      var init, last := s[..|s| - 1], s[|s| - 1];
      assert multiset(Filter(init, keep)) + multiset(Reject(init, keep)) == multiset(init) by {
        FilterRejectSplit(init, keep);
      }
      assert s == init + [last];
      SplitSnoc(Filter(init, keep), Reject(init, keep), init, last, keep(last));
    }
  }

  /**
   * The validation loop of `install` and `set` and the selection loop of
   * `remove`: one pass over the requested ids, keeping order, each id going
   * to exactly one side.
   */
  method Partition(ids: seq<string>, keep: string -> bool) returns (kept: seq<string>, dropped: seq<string>)
    ensures kept == Filter(ids, keep) && dropped == Reject(ids, keep)
    ensures forall x :: x in kept ==> keep(x)
    ensures forall x :: x in dropped ==> !keep(x)
    ensures multiset(kept) + multiset(dropped) == multiset(ids)
  {
    kept, dropped := [], [];
    var i := 0;
    while i < |ids|
      invariant 0 <= i <= |ids|
      invariant kept == Filter(ids[..i], keep)
      invariant dropped == Reject(ids[..i], keep)
    {
      assert ids[..i + 1][..i] == ids[..i] && ids[..i + 1][i] == ids[i];
      if keep(ids[i]) {
        kept := kept + [ids[i]];
      } else {
        dropped := dropped + [ids[i]];
      }
      i := i + 1;
    }
    assert ids[..i] == ids;
    FilterRejectSplit(ids, keep);
  }

  predicate Distinct(s: seq<string>) {
    forall i, j :: 0 <= i < j < |s| ==> s[i] != s[j]
  }

  /**
   * The ids `install` adds, in request order: each valid id that the manifest
   * does not hold yet, once (a repeated id is already in the manifest the
   * second time round).
   */
  function NewIds(seen: set<string>, ids: seq<string>): (r: seq<string>)
    ensures forall x :: x in r <==> x in ids && x !in seen
    ensures Distinct(r)
    decreases |ids|
  {
    if ids == [] then []
    else if ids[0] in seen then NewIds(seen, ids[1..])
    else [ids[0]] + NewIds(seen + {ids[0]}, ids[1..])
  }

  /** The ids `set` adds and removes: requested minus current, and current minus requested. */
  function Changes(current: set<string>, requested: set<string>): (r: (set<string>, set<string>))
    ensures r.0 !! current && r.1 <= current && r.0 !! r.1
    ensures (current - r.1) + r.0 == requested
    ensures r.0 == {} && r.1 == {} <==> current == requested
  {
    (requested - current, current - requested)
  }

  // ---------------------------------------------------------------------------
  // Sparse-checkout paths
  // ---------------------------------------------------------------------------

  /** Record `id` of the catalog lists `p` among its paths. */
  predicate ProvidesPath(c: Catalog, id: string, p: string) {
    Get(c, id).Some? && p in Get(c, id).value.paths
  }

  /** The paths of the ids, in the given order, looked up in the id index; an id not in the index contributes nothing. */
  function IndexPaths(index: map<string, Skill>, order: seq<string>): (r: seq<string>)
    ensures order == [] ==> r == []
    decreases |order|
  {
    if order == [] then []
    else (if order[0] in index then index[order[0]].paths else []) + IndexPaths(index, order[1..])
  }

  /** The paths of the ids, in the given order, as `catalog.get` finds them. */
  function PathsOf(c: Catalog, order: seq<string>): seq<string> {
    IndexPaths(ById(c.skills), order)
  }

  /** A path is listed exactly when some visited id the catalog knows provides it. */
  lemma {:induction false} PathsOfMembers(c: Catalog, order: seq<string>, p: string)
    ensures p in PathsOf(c, order) <==> exists id :: id in order && ProvidesPath(c, id, p)
    decreases |order|
  {
    if order != [] {
      PathsOfMembers(c, order[1..], p);
      if p in PathsOf(c, order[1..]) {
        var id :| id in order[1..] && ProvidesPath(c, id, p);
        assert id in order;
      }
      if ProvidesPath(c, order[0], p) {
        assert order[0] in order;
      }
      forall id | id in order && ProvidesPath(c, id, p)
        ensures p in PathsOf(c, order)
      {
        if id != order[0] {
          assert id in order[1..];
        }
      }
    }
  }

  lemma {:induction false} IndexPathsConcat(index: map<string, Skill>, a: seq<string>, b: seq<string>)
    ensures IndexPaths(index, a + b) == IndexPaths(index, a) + IndexPaths(index, b)
    decreases |a|
  {
    if a == [] {
      assert a + b == b;
    } else {
      IndexPathsConcat(index, a[1..], b);
      assert (a + b)[0] == a[0];
      assert (a + b)[1..] == a[1..] + b;
    }
  }

  /** Taking out the id at position `k` moves its paths out of the middle of the list, multiset-wise. */
  lemma IndexPathsWithout(index: map<string, Skill>, b: seq<string>, k: int)
    requires 0 <= k < |b|
    ensures multiset(IndexPaths(index, b)) == multiset(IndexPaths(index, [b[k]])) + multiset(IndexPaths(index, b[..k] + b[k + 1..]))
  {
    var b1, b2 := b[..k], b[k + 1..];
    assert b == b1 + [b[k]] + b2;
    IndexPathsConcat(index, b1 + [b[k]], b2);
    IndexPathsConcat(index, b1, [b[k]]);
    IndexPathsConcat(index, b1, b2);
  }

  /** Removing one occurrence of the same element from two permutations leaves permutations. */
  lemma RemoveOne(a: seq<string>, b: seq<string>, k: int)
    requires multiset(a) == multiset(b) && |a| > 0 && 0 <= k < |b| && b[k] == a[0]
    ensures multiset(a[1..]) == multiset(b[..k] + b[k + 1..])
  {
    assert a == [a[0]] + a[1..];
    assert b == b[..k] + [b[k]] + b[k + 1..];
    assert multiset(b[..k] + b[k + 1..]) == multiset(b) - multiset{b[k]};
  }

  /** The multiset of paths does not depend on the order the ids are visited in. */
  lemma {:induction false} IndexPathsPermutation(index: map<string, Skill>, a: seq<string>, b: seq<string>)
    requires multiset(a) == multiset(b)
    ensures multiset(IndexPaths(index, a)) == multiset(IndexPaths(index, b))
    decreases |a|
  {
    if a != [] {
      assert a[0] in multiset(b);
      var k :| 0 <= k < |b| && b[k] == a[0];
      RemoveOne(a, b, k);
      IndexPathsPermutation(index, a[1..], b[..k] + b[k + 1..]);
      IndexPathsWithout(index, b, k);
      IndexPathsWithout(index, a, 0);
      assert a[..0] + a[1..] == a[1..];
    }
  }

  lemma SortedPathsMembers(c: Catalog, ids: set<string>)
    ensures forall p :: p in PathsOf(c, SkillManifest.SortedIds(ids)) <==> exists id :: id in ids && ProvidesPath(c, id, p)
  {
    forall p
      ensures p in PathsOf(c, SkillManifest.SortedIds(ids)) <==> exists id :: id in ids && ProvidesPath(c, id, p)
    {
      PathsOfMembers(c, SkillManifest.SortedIds(ids), p);
    }
  }

  /**
   * The list handed to `git sparse-checkout set`: "catalog" first, then the
   * paths of every manifest id the catalog knows; with no catalog, "catalog"
   * alone. Python visits the id set in an unspecified order; this model
   * visits it in ascending order (see `AnyOrderSamePaths`).
   */
  function SparsePaths(c: Option<Catalog>, ids: set<string>): (r: seq<string>)
    ensures |r| >= 1 && r[0] == "catalog"
    ensures c.None? ==> r == ["catalog"]
    ensures c.Some? ==> forall p :: p in r[1..] <==> exists id :: id in ids && ProvidesPath(c.value, id, p)
  {
    var rest := if c.Some? then PathsOf(c.value, SkillManifest.SortedIds(ids)) else [];
    assert (["catalog"] + rest)[1..] == rest;
    if c.Some? then
      SortedPathsMembers(c.value, ids);
      ["catalog"] + rest
    else
      ["catalog"] + rest
  }

  /** A sequence without repeats holds each of its members once. */
  lemma {:induction false} DistinctMultiset(s: seq<string>, ids: set<string>)
    requires Distinct(s) && forall x :: x in s <==> x in ids
    ensures multiset(s) == multiset(ids)
    decreases |s|
  {
    if s == [] {
      assert ids == {};
    } else {
      var t := s[1..];
      assert Distinct(t);
      assert s[0] !in t;
      DistinctMultiset(t, ids - {s[0]});
      assert s == [s[0]] + t;
      assert ids == {s[0]} + (ids - {s[0]});
    }
  }

  /** Whatever order the manifest's ids are enumerated in, the same paths are listed, each as often. */
  lemma AnyOrderSamePaths(c: Catalog, ids: set<string>, order: seq<string>)
    requires Distinct(order) && forall x :: x in order <==> x in ids
    ensures multiset(SparsePaths(Some(c), ids)) == multiset(["catalog"] + PathsOf(c, order))
  {
    var sorted := SkillManifest.SortedIds(ids);
    assert Distinct(sorted) by {
      forall i, j | 0 <= i < j < |sorted|
        ensures sorted[i] != sorted[j]
      {
        LessIrreflexive(sorted[i]);
      }
    }
    DistinctMultiset(sorted, ids);
    DistinctMultiset(order, ids);
    IndexPathsPermutation(ById(c.skills), sorted, order);
  }

  // ---------------------------------------------------------------------------
  // Confirmation and outcomes
  // ---------------------------------------------------------------------------

  /** `--yes`, and the line typed at the `Proceed? [y/N]` prompt (read only without `--yes`). */
  datatype Confirmation = Confirmation(yes: bool, response: string)

  /** The command goes ahead with `--yes`, or when the answer lower-cases to exactly "y". */
  predicate Proceeds(k: Confirmation) {
    k.yes || Lower(k.response) == "y"
  }

  /** The exit code, the sparse-checkout path list if one was set, the manifest if one was saved. */
  datatype Outcome = Outcome(code: int, sparse: Option<seq<string>>, saved: Option<Manifest>)

  /** Returning early: nothing handed to git, nothing saved. */
  function Stop(code: int): Outcome {
    Outcome(code, None, None)
  }

  /**
   * The tail every changing command shares: set the sparse-checkout list for
   * the new ids; when git fails the command returns 1 before saving,
   * otherwise the manifest is saved and the command returns 0.
   */
  function Commit(c: Option<Catalog>, ids: set<string>, sparseOk: bool): (r: Outcome)
    ensures r.sparse == Some(SparsePaths(c, ids))
    ensures r.saved.Some? <==> sparseOk
    ensures r.saved.Some? ==> r.saved.value.ids == ids && r.code == 0
    ensures r.saved.None? ==> r.code == 1
  {
    var paths := SparsePaths(c, ids);
    if sparseOk then Outcome(0, Some(paths), Some(SkillManifest.Manifest(ids))) else Outcome(1, Some(paths), None)
  }

  function SetOf(s: seq<string>): (r: set<string>)
    ensures forall x :: x in r <==> x in s
  {
    set x | x in s
  }

  predicate AllKnown(c: Catalog, ids: seq<string>) {
    forall x :: x in ids ==> Get(c, x).Some?
  }

  // ---------------------------------------------------------------------------
  // The commands
  // ---------------------------------------------------------------------------

  /** The validation step: no id is rejected exactly when the catalog knows every id, and then all are kept. */
  lemma ValidationFacts(c: Catalog, ids: seq<string>)
    ensures Reject(ids, InCatalog(c)) == [] <==> AllKnown(c, ids)
    ensures AllKnown(c, ids) ==> SetOf(Filter(ids, InCatalog(c))) == SetOf(ids)
  {
    var invalid := Reject(ids, InCatalog(c));
    if invalid != [] {
      assert invalid[0] in ids && Get(c, invalid[0]).None?;
    }
  }

  /** The install selection: nothing new exactly when every id is installed, and the new ids complete the set. */
  lemma NewIdsFacts(current: set<string>, ids: seq<string>)
    ensures NewIds(current, ids) == [] <==> SetOf(ids) <= current
    ensures current + SetOf(NewIds(current, ids)) == current + SetOf(ids)
  {
    var added := NewIds(current, ids);
    if added != [] {
      assert added[0] in ids && added[0] !in current;
    }
  }

  /** The remove selection: nothing selected exactly when no id is installed, and the selection removes the same ids. */
  lemma SelectionFacts(m: Manifest, ids: seq<string>)
    ensures Filter(ids, Installed(m)) == [] <==> SetOf(ids) !! m.ids
    ensures m.ids - SetOf(Filter(ids, Installed(m))) == m.ids - SetOf(ids)
  {
    var selected := Filter(ids, Installed(m));
    if selected != [] {
      assert selected[0] in ids && selected[0] in m.ids;
    }
  }

  /** The catalog is loaded and knows every requested id. */
  predicate Validated(c: Option<Catalog>, ids: seq<string>) {
    c.Some? && AllKnown(c.value, ids)
  }

  /**
   * `cmd_install` after the submodule set-up: no catalog or an unknown id
   * exits 1, nothing new exits 0, then confirm, set paths and save.
   */
  function Install(c: Option<Catalog>, m: Manifest, ids: seq<string>, k: Confirmation, sparseOk: bool): (r: Outcome)
    ensures !Validated(c, ids) ==> r == Stop(1)
    ensures Validated(c, ids) && SetOf(ids) <= m.ids ==> r == Stop(0)
    ensures Validated(c, ids) && !(SetOf(ids) <= m.ids) && !Proceeds(k) ==> r == Stop(1)
    ensures r.sparse.Some? <==> Validated(c, ids) && !(SetOf(ids) <= m.ids) && Proceeds(k)
    ensures r.sparse.Some? ==> r.sparse.value == SparsePaths(c, m.ids + SetOf(ids))
    ensures r.saved.Some? <==> r.sparse.Some? && sparseOk
    ensures r.saved.Some? ==> r.saved.value.ids == m.ids + SetOf(ids)
    ensures r.code in {0, 1}
    ensures r.code == 0 <==> r.saved.Some? || (Validated(c, ids) && SetOf(ids) <= m.ids)
  {
    if c.None? then Stop(1)
    else
      var catalog := c.value;
      ValidationFacts(catalog, ids);
      var invalid := Reject(ids, InCatalog(catalog));
      if invalid != [] then Stop(1)
      else
        var valid := Filter(ids, InCatalog(catalog));
        NewIdsFacts(m.ids, valid);
        var added := NewIds(m.ids, valid);
        if added == [] then Stop(0)
        else if !Proceeds(k) then Stop(1)
        else Commit(c, m.ids + SetOf(added), sparseOk)
  }

  /**
   * `cmd_remove` after the dirty-submodule check: nothing installed among the
   * ids exits 0, then confirm, drop the ids, set paths (with the catalog when
   * one could be loaded) and save.
   */
  function Remove(c: Option<Catalog>, m: Manifest, ids: seq<string>, k: Confirmation, sparseOk: bool): (r: Outcome)
    ensures SetOf(ids) !! m.ids ==> r == Stop(0)
    ensures !(SetOf(ids) !! m.ids) && !Proceeds(k) ==> r == Stop(1)
    ensures r.sparse.Some? <==> !(SetOf(ids) !! m.ids) && Proceeds(k)
    ensures r.sparse.Some? ==> r.sparse.value == SparsePaths(c, m.ids - SetOf(ids))
    ensures c.None? && r.sparse.Some? ==> r.sparse.value == ["catalog"]
    ensures r.saved.Some? <==> r.sparse.Some? && sparseOk
    ensures r.saved.Some? ==> r.saved.value.ids == m.ids - SetOf(ids)
    ensures r.code in {0, 1}
    ensures r.code == 0 <==> r.saved.Some? || SetOf(ids) !! m.ids
  {
    SelectionFacts(m, ids);
    var selected := Filter(ids, Installed(m));
    if selected == [] then Stop(0)
    else if !Proceeds(k) then Stop(1)
    else Commit(c, m.ids - SetOf(selected), sparseOk)
  }

  /**
   * `cmd_set` after the submodule set-up: no catalog or an unknown id exits 1,
   * an unchanged set exits 0, then confirm, replace the ids, set paths and save.
   */
  function Set(c: Option<Catalog>, m: Manifest, ids: seq<string>, k: Confirmation, sparseOk: bool): (r: Outcome)
    ensures !Validated(c, ids) ==> r == Stop(1)
    ensures Validated(c, ids) && SetOf(ids) == m.ids ==> r == Stop(0)
    ensures Validated(c, ids) && SetOf(ids) != m.ids && !Proceeds(k) ==> r == Stop(1)
    ensures r.sparse.Some? <==> Validated(c, ids) && SetOf(ids) != m.ids && Proceeds(k)
    ensures r.sparse.Some? ==> r.sparse.value == SparsePaths(c, SetOf(ids))
    ensures r.saved.Some? <==> r.sparse.Some? && sparseOk
    ensures r.saved.Some? ==> r.saved.value.ids == SetOf(ids)
    ensures r.code in {0, 1}
    ensures r.code == 0 <==> r.saved.Some? || (Validated(c, ids) && SetOf(ids) == m.ids)
  {
    if c.None? then Stop(1)
    else
      var catalog := c.value;
      ValidationFacts(catalog, ids);
      var invalid := Reject(ids, InCatalog(catalog));
      if invalid != [] then Stop(1)
      else
        var requested := SetOf(Filter(ids, InCatalog(catalog)));
        var (toAdd, toRemove) := Changes(m.ids, requested);
        if toAdd == {} && toRemove == {} then Stop(0)
        else if !Proceeds(k) then Stop(1)
        else Commit(c, requested, sparseOk)
  }

  /** `cmd_sync` once the submodule is initialised: the path list for the manifest as it stands. */
  function SyncPaths(c: Option<Catalog>, m: Manifest): (r: seq<string>)
    ensures |r| >= 1 && r[0] == "catalog"
    ensures c.None? ==> r == ["catalog"]
    ensures c.Some? ==> forall p :: p in r[1..] <==> exists id :: id in m.ids && ProvidesPath(c.value, id, p)
  {
    SparsePaths(c, m.ids)
  }

  /** Declining the prompt never saves the manifest, and exits with 1 whenever there was something to do. */
  lemma DeclineSavesNothing(c: Option<Catalog>, m: Manifest, ids: seq<string>, response: string, sparseOk: bool)
    requires Lower(response) != "y"
    ensures Install(c, m, ids, Confirmation(false, response), sparseOk).saved.None?
    ensures Remove(c, m, ids, Confirmation(false, response), sparseOk).saved.None?
    ensures Set(c, m, ids, Confirmation(false, response), sparseOk).saved.None?
    ensures Validated(c, ids) && !(SetOf(ids) <= m.ids) ==> Install(c, m, ids, Confirmation(false, response), sparseOk) == Stop(1)
    ensures !(SetOf(ids) !! m.ids) ==> Remove(c, m, ids, Confirmation(false, response), sparseOk) == Stop(1)
    ensures Validated(c, ids) && SetOf(ids) != m.ids ==> Set(c, m, ids, Confirmation(false, response), sparseOk) == Stop(1)
  {
  }

  /** When `git sparse-checkout set` fails, nothing is saved and the command exits with 1. */
  lemma GitFailureSavesNothing(c: Option<Catalog>, m: Manifest, ids: seq<string>, k: Confirmation)
    ensures var r := Install(c, m, ids, k, false); r.saved.None? && (r.sparse.Some? ==> r.code == 1)
    ensures var r := Remove(c, m, ids, k, false); r.saved.None? && (r.sparse.Some? ==> r.code == 1)
    ensures var r := Set(c, m, ids, k, false); r.saved.None? && (r.sparse.Some? ==> r.code == 1)
  {
  }

  /** Repeating an install with the same ids finds nothing new. */
  lemma InstallTwiceIsNoOp(c: Option<Catalog>, m: Manifest, ids: seq<string>, k: Confirmation, k2: Confirmation, sparseOk: bool)
    ensures var r := Install(c, m, ids, k, sparseOk);
            r.saved.Some? ==> Install(c, r.saved.value, ids, k2, sparseOk) == Stop(0)
  {
  }

  /** After `set`, the same request again needs no changes. */
  lemma SetTwiceIsNoOp(c: Option<Catalog>, m: Manifest, ids: seq<string>, k: Confirmation, k2: Confirmation, sparseOk: bool)
    ensures var r := Set(c, m, ids, k, sparseOk);
            r.saved.Some? ==> Set(c, r.saved.value, ids, k2, sparseOk) == Stop(0)
  {
  }

  // ---------------------------------------------------------------------------
  // Description shown by `catalog` and `suggest`
  // ---------------------------------------------------------------------------

  const DescriptionWidth: nat := 80

  /** The text before the first newline (`s.split("\n")[0]`). */
  function FirstLine(s: string): (r: string)
    ensures r <= s
    ensures '\n' !in r
    ensures r == s || s[|r|] == '\n'
    decreases |s|
  {
    if s == [] || s[0] == '\n' then [] else [s[0]] + FirstLine(s[1..])
  }

  /**
   * The description line printed under a skill: nothing for an empty
   * description, otherwise its first line cut to 80 characters.
   */
  function DisplayDescription(description: string): (r: Option<string>)
    ensures r.None? <==> description == []
    ensures r.Some? ==> r.value <= description && |r.value| <= DescriptionWidth && '\n' !in r.value
    ensures r.Some? ==> |r.value| == DescriptionWidth || r.value == description || description[|r.value|] == '\n'
  {
    if description == [] then None
    else
      var line := FirstLine(description);
      Some(if |line| <= DescriptionWidth then line else line[..DescriptionWidth])
  }
}

=== FILE: config.dfy ===
/**
 * Configuration resolution (`config.py`): where the repository URL and the
 * branch come from, and which fields are written back.
 *
 * The environment variables and the project config file are inputs here:
 * `Env` holds the two variables (absent or set), `ConfigFile` what reading
 * and decoding `.claude/skills.config.json` produced.
 */
module RepoConfig {
  import opened Wrappers
  import opened Text
  import opened Json

  const DefaultBranch: string := "main"
  const DefaultSkillsDir: string := ".claude/skills"
  const DefaultManifestPath: string := ".claude/skills.manifest"
  const DefaultConfigPath: string := ".claude/skills.config.json"

  /**
   * `Config`. The URL and the branch keep whatever value the config file held:
   * the source copies decoded values through without checking that they are strings.
   */
  datatype Config = Config(
    repoUrl: Json,
    branch: Json,
    skillsDir: string,
    manifestPath: string,
    configPath: string)

  /** `SKILLS_REPO_URL` and `SKILLS_REPO_BRANCH`, each unset or set to some text. */
  datatype Env = Env(repoUrl: Option<string>, branch: Option<string>)

  /** What became of reading and decoding the project config file. */
  datatype ConfigFile =
    | Missing                // the file does not exist
    | Unreadable             // opening or reading failed (`OSError`)
    | InvalidJson            // the text is not JSON (`JSONDecodeError`)
    | BadEncoding            // the bytes do not decode as text (`UnicodeDecodeError`)
    | Decoded(data: Json)    // the decoded document, of any JSON shape

  /** Why resolution fails: the `ConfigError`, or an exception the loader does not catch. */
  datatype LoadError =
    | NoRepoUrl              // `ConfigError`: no URL from either source
    | WrongDocumentShape     // `TypeError` from `in` or `[]` on a document that is not an object
    | UndecodableText        // `UnicodeDecodeError`, which the loader does not catch

  /** The outcome of Python's `key in data` followed, when it holds, by `data[key]`. */
  datatype Lookup = Absent | Present(value: Json) | Fault

  /**
   * `key in data`, then `data[key]`, on a decoded document. An object answers by
   * key; a list or a string can answer the membership test but cannot be indexed
   * by a string; any other value cannot even answer the test.
   */
  function Find(data: Json, key: string): (r: Lookup)
    ensures data.JObject? ==> (r.Present? <==> key in data.fields) && !r.Fault?
    ensures r.Present? ==> data.JObject? && key in data.fields && r.value == data.fields[key]
    ensures data.JArray? ==> (r.Fault? <==> JString(key) in data.items)
    ensures data.JString? ==> (r.Fault? <==> Contains(data.s, key))
    ensures data.JNull? || data.JBool? || data.JNumber? ==> r.Fault?
  {
    match data
    case JObject(fields) => if key in fields then Present(fields[key]) else Absent
    case JArray(items) => if JString(key) in items then Fault else Absent
    case JString(s) => if Contains(s, key) then Fault else Absent
    case _ => Fault
  }

  /** The URL the environment supplies; unset reads as "". */
  function EnvUrl(env: Env): string {
    env.repoUrl.GetOr("")
  }

  /** The branch the environment supplies; unset reads as "main". */
  function EnvBranch(env: Env): string {
    env.branch.GetOr(DefaultBranch)
  }

  predicate HasDefaultPaths(c: Config) {
    c.skillsDir == DefaultSkillsDir && c.manifestPath == DefaultManifestPath && c.configPath == DefaultConfigPath
  }

  /** The final check and construction: a falsy URL is a `ConfigError`. */
  function Resolve(url: Json, branch: Json): (r: Result<Config, LoadError>)
    ensures r.Success? <==> url.Truthy()
    ensures r.Failure? ==> r.error == NoRepoUrl
    ensures r.Success? ==> r.value.repoUrl == url && r.value.branch == branch && HasDefaultPaths(r.value)
  {
    if !url.Truthy() then Failure(NoRepoUrl)
    else Success(Config(url, branch, DefaultSkillsDir, DefaultManifestPath, DefaultConfigPath))
  }

  /** Both file lookups, then resolution, when the file decoded to `data`. */
  function LoadFrom(url: Json, branch: Json, data: Json): (r: Result<Config, LoadError>)
    ensures r.Success? ==> r.value.repoUrl.Truthy()
    ensures url.Truthy() && r.Success? ==> r.value.repoUrl == url
  {
    var urlLookup := if url.Truthy() then Absent else Find(data, "repo_url");
    var branchLookup := Find(data, "branch");
    if urlLookup.Fault? || branchLookup.Fault? then Failure(WrongDocumentShape)
    else
      var u := if urlLookup.Present? then urlLookup.value else url;
      var b := if branchLookup.Present? then branchLookup.value else branch;
      Resolve(u, b)
  }

  /** `Config.load`: environment first, then the project config file, then the URL check. */
  function Load(env: Env, file: ConfigFile): (r: Result<Config, LoadError>)
    ensures r.Success? ==> r.value.repoUrl.Truthy() && HasDefaultPaths(r.value)
    ensures file.BadEncoding? <==> r == Failure(UndecodableText)
    ensures file.Missing? || file.Unreadable? || file.InvalidJson? ==>
              (r.Success? <==> EnvUrl(env) != "") && (r.Failure? ==> r.error == NoRepoUrl)
    ensures (file.Missing? || file.Unreadable? || file.InvalidJson?) && r.Success? ==>
              r.value.repoUrl == JString(EnvUrl(env)) && r.value.branch == JString(EnvBranch(env))
  {
    var url := JString(EnvUrl(env));
    var branch := JString(EnvBranch(env));
    match file
    case Missing => Resolve(url, branch)
    case Unreadable => Resolve(url, branch)
    case InvalidJson => Resolve(url, branch)
    case BadEncoding => Failure(UndecodableText)
    case Decoded(data) => LoadFrom(url, branch, data)
  }

  /** A file that cannot be read or parsed counts as no file at all. */
  lemma IgnoredFileIsNoFile(env: Env)
    ensures Load(env, Unreadable) == Load(env, Missing)
    ensures Load(env, InvalidJson) == Load(env, Missing)
  {
  }

  /** A non-empty `SKILLS_REPO_URL` wins over any `repo_url` in an object-shaped file. */
  lemma EnvUrlWins(env: Env, fields: map<string, Json>)
    requires EnvUrl(env) != ""
    ensures Load(env, Decoded(JObject(fields))).Success?
    ensures Load(env, Decoded(JObject(fields))).value.repoUrl == JString(EnvUrl(env))
  {
  }

  /** With `SKILLS_REPO_URL` unset or empty, the URL is the file's `repo_url`, and it must be truthy. */
  lemma FileUrlWhenEnvEmpty(env: Env, fields: map<string, Json>)
    requires EnvUrl(env) == ""
    ensures var r := Load(env, Decoded(JObject(fields)));
            (r.Success? <==> "repo_url" in fields && fields["repo_url"].Truthy())
            && (r.Success? ==> r.value.repoUrl == fields["repo_url"])
            && (r.Failure? ==> r.error == NoRepoUrl)
  {
  }

  /** A `branch` key in the file overrides `SKILLS_REPO_BRANCH`; without one the environment or "main" decides. */
  lemma FileBranchWins(env: Env, fields: map<string, Json>)
    requires Load(env, Decoded(JObject(fields))).Success?
    ensures var c := Load(env, Decoded(JObject(fields))).value;
            c.branch == if "branch" in fields then fields["branch"] else JString(EnvBranch(env))
  {
  }

  /** A document that is not an object, and lists a looked-up key as an element, raises `TypeError`. */
  lemma ListDocumentWithKeyFails(env: Env, items: seq<Json>)
    requires JString("branch") in items
    ensures Load(env, Decoded(JArray(items))) == Failure(WrongDocumentShape)
  {
  }

  // ---------------------------------------------------------------------------
  // Saving
  // ---------------------------------------------------------------------------

  /** `Config.save`: the document written holds the URL and the branch and nothing else. */
  function SaveFields(c: Config): (r: map<string, Json>)
    ensures r.Keys == {"repo_url", "branch"}
    ensures r["repo_url"] == c.repoUrl && r["branch"] == c.branch
  {
    map["repo_url" := c.repoUrl, "branch" := c.branch]
  }

  /**
   * Loading a saved config without `SKILLS_REPO_URL` gives it back when its URL
   * is truthy and its paths are the defaults (the paths are not saved).
   */
  lemma SaveThenLoad(env: Env, c: Config)
    requires EnvUrl(env) == "" && c.repoUrl.Truthy() && HasDefaultPaths(c)
    ensures Load(env, Decoded(JObject(SaveFields(c)))) == Success(c)
  {
  }

  /** The environment's URL still wins over a saved one; the saved branch is kept. */
  lemma SaveThenLoadWithEnvUrl(env: Env, c: Config)
    requires EnvUrl(env) != ""
    ensures var r := Load(env, Decoded(JObject(SaveFields(c))));
            r.Success? && r.value.repoUrl == JString(EnvUrl(env)) && r.value.branch == c.branch
  {
  }
}

=== FILE: json.dfy ===
/**
 * The decoded form of a JSON document, as Python's `json.load` hands it to
 * the catalog loader and the configuration reader. Decoding the text itself
 * is not part of the model.
 */
module Json {

  /** A decoded JSON value; a number is its exact value (Python's int or finite float). */
  datatype Json =
    | JNull
    | JBool(b: bool)
    | JNumber(n: real)
    | JString(s: string)
    | JArray(items: seq<Json>)
    | JObject(fields: map<string, Json>)
  {
    /** Python truthiness of the decoded value (`None`, `False`, `0`, `0.0`, `""`, `[]`, `{}` are false). */
    predicate Truthy() {
      match this
      case JNull => false
      case JBool(b) => b
      case JNumber(n) => n != 0.0
      case JString(s) => |s| > 0
      case JArray(items) => |items| > 0
      case JObject(fields) => |fields| > 0
    }
  }
}

=== FILE: manifest.dfy ===
/**
 * The skills manifest (`manifest.py`): the set of installed skill ids, its
 * line-oriented text format and the set operations the commands use.
 */
module SkillManifest {
  import opened Wrappers
  import opened Text

  /** `Manifest`: the installed skill ids. */
  datatype Manifest = Manifest(ids: set<string>)

  const HeaderTitle: string := "# Skills manifest - managed by skillsctl"
  const HeaderWarning: string := "# Do not edit manually"

  // ---------------------------------------------------------------------------
  // Reading
  // ---------------------------------------------------------------------------

  predicate IsNewline(c: char) {
    c == '\n'
  }

  predicate IsLineBreak(c: char) {
    c == '\n' || c == '\r'
  }

  /** Text-mode reading: `\r\n` and a lone `\r` both become `\n` (Python's universal newlines). */
  function TranslateNewlines(raw: string): (r: string)
    ensures forall k :: 0 <= k < |r| ==> r[k] != '\r'
    ensures (forall k :: 0 <= k < |raw| ==> raw[k] != '\r') ==> r == raw
    decreases |raw|
  {
    if raw == [] then []
    else if raw[0] == '\r' then
      if |raw| > 1 && raw[1] == '\n' then "\n" + TranslateNewlines(raw[2..])
      else "\n" + TranslateNewlines(raw[1..])
    else [raw[0]] + TranslateNewlines(raw[1..])
  }

  /** The line ends universal-newline reading recognises. */
  predicate IsLineEnd(eol: string) {
    eol == "\n" || eol == "\r" || eol == "\r\n"
  }

  /** A character other than `\r` reads through unchanged. */
  lemma TranslateCons(c: char, rest: string)
    requires c != '\r'
    ensures TranslateNewlines([c] + rest) == [c] + TranslateNewlines(rest)
  {
    assert ([c] + rest)[0] == c && ([c] + rest)[1..] == rest;
  }

  /** Text without a carriage return reads through unchanged, whatever follows it. */
  lemma {:induction false} TranslateCrFreePrefix(a: string, rest: string)
    requires FreeOf(a, IsLineBreak)
    ensures TranslateNewlines(a + rest) == a + TranslateNewlines(rest)
    decreases |a|
  {
    if a == [] {
      assert a + rest == rest;
    } else {
      var c, a', t := a[0], a[1..], TranslateNewlines(rest);
      assert c != '\r' by {
        assert !IsLineBreak(a[0]);
      }
      assert a + rest == [c] + (a' + rest);
      assert TranslateNewlines([c] + (a' + rest)) == [c] + TranslateNewlines(a' + rest) by {
        TranslateCons(c, a' + rest);
      }
      assert TranslateNewlines(a' + rest) == a' + t by {
        TranslateCrFreePrefix(a', rest);
      }
      assert [c] + (a' + t) == a + t;
    }
  }

  /** Each line end reads as one `\n`. */
  lemma TranslateLineEnd(eol: string, b: string)
    requires IsLineEnd(eol)
    requires eol == "\r" ==> b == [] || b[0] != '\n'
    ensures TranslateNewlines(eol + b) == "\n" + TranslateNewlines(b)
  {
    var raw := eol + b;
    if eol == "\n" {
      assert raw[0] == '\n' && raw[1..] == b;
    } else if eol == "\r\n" {
      assert raw[0] == '\r' && raw[1] == '\n' && raw[2..] == b;
    } else {
      assert raw[0] == '\r' && raw[1..] == b;
      assert |raw| > 1 ==> raw[1] == b[0];
    }
  }

  /**
   * A line, its line end and the rest read as the line, one `\n` and the rest
   * read on. A lone `\r` counts as a line end only when no `\n` follows it
   * (otherwise the two form one `\r\n`).
   */
  lemma TranslateLineThenRest(a: string, eol: string, b: string)
    requires FreeOf(a, IsLineBreak) && IsLineEnd(eol)
    requires eol == "\r" ==> b == [] || b[0] != '\n'
    ensures TranslateNewlines(a + eol + b) == a + "\n" + TranslateNewlines(b)
  {
    var tail, t := eol + b, TranslateNewlines(b);
    assert TranslateNewlines(a + tail) == a + TranslateNewlines(tail) by {
      TranslateCrFreePrefix(a, tail);
    }
    assert TranslateNewlines(tail) == "\n" + t by {
      TranslateLineEnd(eol, b);
    }
    assert a + eol + b == a + tail by {
      AppendAssoc(a, eol, b);
    }
    assert a + ("\n" + t) == a + "\n" + t by {
      AppendAssoc(a, "\n", t);
    }
  }

  lemma AppendAssoc(x: string, y: string, z: string)
    ensures x + y + z == x + (y + z)
  {
  }

  /** The lines glued together with the line end `eol` between neighbours. */
  function JoinLines(lines: seq<string>, eol: string): string
    requires |lines| >= 1
    decreases |lines|
  {
    if |lines| == 1 then lines[0] else lines[0] + eol + JoinLines(lines[1..], eol)
  }

  /** Lines written with any one of the three line ends read back as the same lines. */
  lemma {:induction false} TranslateJoinedLines(lines: seq<string>, eol: string)
    requires |lines| >= 1 && IsLineEnd(eol)
    requires forall i :: 0 <= i < |lines| ==> FreeOf(lines[i], IsLineBreak)
    ensures TranslateNewlines(JoinLines(lines, eol)) == Join(lines, '\n')
    decreases |lines|
  {
    if |lines| == 1 {
      TranslateCrFreePrefix(lines[0], []);
      assert lines[0] + [] == lines[0];
    } else {
      var rest := JoinLines(lines[1..], eol);
      if eol == "\r" && rest != [] {
        assert lines[1] != [] ==> rest[0] == lines[1][0];
        assert lines[1] == [] ==> rest[0] == '\r';
      }
      TranslateLineThenRest(lines[0], eol, rest);
      TranslateJoinedLines(lines[1..], eol);
    }
  }

  /** Universal newlines: the line structure survives reading, whichever line end the file uses. */
  lemma ReadLinesWithAnyLineEnd(lines: seq<string>, eol: string)
    requires |lines| >= 1 && IsLineEnd(eol)
    requires forall i :: 0 <= i < |lines| ==> FreeOf(lines[i], IsLineBreak)
    ensures Split(TranslateNewlines(JoinLines(lines, eol)), IsNewline) == lines
  {
    TranslateJoinedLines(lines, eol);
    forall i | 0 <= i < |lines|
      ensures FreeOf(lines[i], IsNewline)
    {
      assert FreeOf(lines[i], IsLineBreak);
    }
    SplitJoin(lines, '\n', IsNewline);
  }

  /** A stripped line that names an id: not empty and not a `#` comment. */
  predicate IsIdLine(stripped: string) {
    stripped != [] && stripped[0] != '#'
  }

  /** The ids named by a sequence of lines: each stripped line that is neither empty nor a comment. */
  function LineIds(lines: seq<string>): (r: set<string>)
    ensures forall id :: id in r ==> IsIdLine(id) && !IsSpace(id[0]) && !IsSpace(id[|id| - 1])
  {
    set line | line in lines && IsIdLine(Strip(line)) :: Strip(line)
  }

  /** `Manifest.load`: `None` stands for a file that does not exist. */
  function Parse(content: Option<string>): (r: Manifest)
    ensures content.None? ==> r.ids == {}
    ensures forall id :: id in r.ids ==> IsIdLine(id) && !IsSpace(id[0]) && !IsSpace(id[|id| - 1])
  {
    match content
    case None => Manifest({})
    case Some(raw) => Manifest(LineIds(Split(TranslateNewlines(raw), IsNewline)))
  }

  /** One line on its own names the stripped line as an id, unless that is empty or a comment. */
  lemma ParseSingleLine(line: string)
    requires FreeOf(line, IsLineBreak)
    ensures Parse(Some(line)).ids == if IsIdLine(Strip(line)) then {Strip(line)} else {}
  {
    TranslateCrFreePrefix(line, []);
    assert line + [] == line;
    assert FreeOf(line, IsNewline) by {
      forall k | 0 <= k < |line| ensures !IsNewline(line[k]) {
        assert !IsLineBreak(line[k]);
      }
    }
    SplitFree(line, IsNewline);
  }

  /** Reading is line by line: the ids of a first line and of the rest add up. */
  lemma ParseLineThenRest(a: string, eol: string, b: string)
    requires FreeOf(a, IsLineBreak) && IsLineEnd(eol)
    requires eol == "\r" ==> b == [] || b[0] != '\n'
    ensures Parse(Some(a + eol + b)).ids == Parse(Some(a)).ids + Parse(Some(b)).ids
  {
    TranslateLineThenRest(a, eol, b);
    var t := TranslateNewlines(b);
    assert FreeOf(a, IsNewline) by {
      forall k | 0 <= k < |a| ensures !IsNewline(a[k]) {
        assert !IsLineBreak(a[k]);
      }
    }
    SplitPieceThenSeparator(a, '\n', t, IsNewline);
    ParseSingleLine(a);
    var rest := Split(t, IsNewline);
    assert LineIds([a] + rest) == LineIds([a]) + LineIds(rest);
    TranslateCrFreePrefix(a, []);
    assert a + [] == a;
    SplitFree(a, IsNewline);
  }

  /** The empty text names no id. */
  lemma ParseEmpty()
    ensures Parse(Some([])).ids == {}
  {
    assert Strip([]) == [];
    ParseSingleLine([]);
  }

  // ---------------------------------------------------------------------------
  // Writing
  // ---------------------------------------------------------------------------

  predicate IsLeast(m: string, ids: set<string>) {
    m in ids && forall y :: y in ids ==> LessOrEqual(m, y)
  }

  lemma {:induction false} LeastExists(ids: set<string>)
    requires ids != {}
    ensures exists m :: IsLeast(m, ids)
    decreases |ids|
  {
    var x :| x in ids;
    if ids != {x} {
      LeastExists(ids - {x});
      var m :| IsLeast(m, ids - {x});
      if Less(x, m) {
        forall y | y in ids
          ensures LessOrEqual(x, y)
        {
          if y != x {
            LessOrEqualTransitive(x, m, y);
          }
        }
        assert IsLeast(x, ids);
      } else {
        if x != m {
          LessTotal(x, m);
        }
        assert IsLeast(m, ids);
      }
    } else {
      assert IsLeast(x, ids);
    }
  }

  lemma LeastUnique(a: string, b: string, ids: set<string>)
    requires IsLeast(a, ids) && IsLeast(b, ids)
    ensures a == b
  {
    if a != b {
      LessAsymmetric(a, b);
    }
  }

  lemma LeastIsUnique(ids: set<string>)
    ensures forall a, b :: IsLeast(a, ids) && IsLeast(b, ids) ==> a == b
  {
    forall a, b | IsLeast(a, ids) && IsLeast(b, ids)
      ensures a == b
    {
      LeastUnique(a, b, ids);
    }
  }

  predicate StrictlyIncreasing(s: seq<string>) {
    forall i, j :: 0 <= i < j < |s| ==> Less(s[i], s[j])
  }

  /** The least id is below every id of any listing of the others. */
  lemma LeastBeforeRest(m: string, ids: set<string>, rest: seq<string>)
    requires IsLeast(m, ids)
    requires forall x :: x in rest <==> x in ids - {m}
    ensures forall j :: 0 <= j < |rest| ==> Less(m, rest[j])
  {
    forall j | 0 <= j < |rest|
      ensures Less(m, rest[j])
    {
      assert rest[j] in rest;
    }
  }

  /** `sorted(ids)`: every id once, in ascending code-point order. */
  function SortedIds(ids: set<string>): (r: seq<string>)
    ensures forall x :: x in r <==> x in ids
    ensures StrictlyIncreasing(r)
    ensures |r| == |ids|
    decreases |ids|
  {
    if ids == {} then []
    else
      LeastExists(ids);
      LeastIsUnique(ids);
      var m :| IsLeast(m, ids);
      var rest := SortedIds(ids - {m});
      LeastBeforeRest(m, ids, rest);
      [m] + rest
  }

  /** The lines, each followed by a newline. */
  function Terminated(lines: seq<string>): string
    decreases |lines|
  {
    if lines == [] then [] else lines[0] + "\n" + Terminated(lines[1..])
  }

  lemma {:induction false} TerminatedIsJoin(lines: seq<string>)
    ensures Terminated(lines) == Join(lines + [[]], '\n')
    decreases |lines|
  {
    if lines != [] {
      TerminatedIsJoin(lines[1..]);
      assert (lines + [[]])[1..] == lines[1..] + [[]];
    }
  }

  /** Splitting terminated lines at newlines gives the lines back, plus the empty rest after the last newline. */
  lemma TerminatedSplits(lines: seq<string>)
    ensures (forall i :: 0 <= i < |lines| ==> FreeOf(lines[i], IsNewline))
            ==> Split(Terminated(lines), IsNewline) == lines + [[]]
  {
    TerminatedIsJoin(lines);
    if forall i :: 0 <= i < |lines| ==> FreeOf(lines[i], IsNewline) {
      SplitJoin(lines + [[]], '\n', IsNewline);
    }
  }

  /** A `#` line without line breaks or surrounding whitespace reads back as a comment. */
  lemma CommentLine(h: string)
    requires |h| > 0 && h[0] == '#' && !IsSpace(h[|h| - 1])
    ensures !IsIdLine(Strip(h))
  {
    StripUnchanged(h);
  }

  lemma HeaderTitleIsComment()
    ensures FreeOf(HeaderTitle, IsLineBreak) && !IsIdLine(Strip(HeaderTitle))
  {
    forall k | 0 <= k < |HeaderTitle|
      ensures !IsLineBreak(HeaderTitle[k])
    {
    }
    CommentLine(HeaderTitle);
  }

  lemma HeaderWarningIsComment()
    ensures FreeOf(HeaderWarning, IsLineBreak) && !IsIdLine(Strip(HeaderWarning))
  {
    forall k | 0 <= k < |HeaderWarning|
      ensures !IsLineBreak(HeaderWarning[k])
    {
    }
    CommentLine(HeaderWarning);
  }

  /** The header comments hold no line break and read back as comments. */
  lemma HeadersAreComments()
    ensures FreeOf(HeaderTitle, IsLineBreak) && FreeOf(HeaderWarning, IsLineBreak)
    ensures !IsIdLine(Strip(HeaderTitle)) && !IsIdLine(Strip(HeaderWarning))
  {
    HeaderTitleIsComment();
    HeaderWarningIsComment();
  }

  /** The lines `Manifest.save` writes, before their newlines. */
  function SavedLines(m: Manifest): seq<string> {
    [HeaderTitle, HeaderWarning] + SortedIds(m.ids)
  }

  lemma SavedLinesFreeOf(m: Manifest, isSep: char -> bool)
    requires FreeOf(HeaderTitle, isSep) && FreeOf(HeaderWarning, isSep)
    requires forall id :: id in m.ids ==> FreeOf(id, isSep)
    ensures forall i :: 0 <= i < |SavedLines(m)| ==> FreeOf(SavedLines(m)[i], isSep)
  {
    var sorted := SortedIds(m.ids);
    var lines := SavedLines(m);
    forall i | 2 <= i < |lines|
      ensures FreeOf(lines[i], isSep)
    {
      assert lines[i] == sorted[i - 2];
      assert sorted[i - 2] in sorted;
    }
  }

  /** The saved lines come apart at their newlines again when no id holds a `\n`. */
  lemma SavedLinesSplit(m: Manifest)
    ensures (forall id :: id in m.ids ==> FreeOf(id, IsNewline))
            ==> Split(Terminated(SavedLines(m)), IsNewline) == SavedLines(m) + [[]]
  {
    if forall id :: id in m.ids ==> FreeOf(id, IsNewline) {
      HeadersAreComments();
      SavedLinesFreeOf(m, IsNewline);
      TerminatedSplits(SavedLines(m));
    }
  }

  /** `Manifest.save`: the two header comments, then every id once in ascending order, one per line. */
  function Serialize(m: Manifest): (r: string)
    ensures (forall id :: id in m.ids ==> FreeOf(id, IsNewline))
            ==> Split(r, IsNewline) == [HeaderTitle, HeaderWarning] + SortedIds(m.ids) + [[]]
  {
    SavedLinesSplit(m);
    Terminated(SavedLines(m))
  }

  /** An id that survives a save and a load unchanged. */
  predicate IsCleanId(id: string) {
    IsIdLine(id) && !IsSpace(id[0]) && !IsSpace(id[|id| - 1]) && FreeOf(id, IsLineBreak)
  }

  lemma {:induction false} TerminatedFreeOfCarriageReturn(lines: seq<string>)
    requires forall i :: 0 <= i < |lines| ==> FreeOf(lines[i], IsLineBreak)
    ensures forall k :: 0 <= k < |Terminated(lines)| ==> Terminated(lines)[k] != '\r'
    decreases |lines|
  {
    if lines != [] {
      TerminatedFreeOfCarriageReturn(lines[1..]);
    }
  }

  lemma SavedTextReadsBack(m: Manifest)
    requires forall id :: id in m.ids ==> IsCleanId(id)
    ensures Split(TranslateNewlines(Serialize(m)), IsNewline) == SavedLines(m) + [[]]
  {
    HeadersAreComments();
    SavedLinesFreeOf(m, IsLineBreak);
    TerminatedFreeOfCarriageReturn(SavedLines(m));
    assert Serialize(m) == Terminated(SavedLines(m));
  }

  lemma SavedLinesCoverIds(m: Manifest)
    requires forall id :: id in m.ids ==> IsCleanId(id)
    ensures m.ids <= LineIds(SavedLines(m) + [[]])
  {
    var sorted := SortedIds(m.ids);
    var split := SavedLines(m) + [[]];
    forall id | id in m.ids
      ensures id in LineIds(split)
    {
      StripUnchanged(id);
      assert id in sorted;
      assert id in split;
    }
  }

  /** A saved line that reads as an id reads as one of the saved ids. */
  lemma SavedLineNamesId(m: Manifest, i: int)
    requires forall id :: id in m.ids ==> IsCleanId(id)
    requires 0 <= i < |SavedLines(m)| + 1
    ensures var line := (SavedLines(m) + [[]])[i]; IsIdLine(Strip(line)) ==> Strip(line) in m.ids
  {
    var split := SavedLines(m) + [[]];
    if i == 0 {
      assert split[i] == HeaderTitle;
      HeaderTitleIsComment();
    } else if i == 1 {
      assert split[i] == HeaderWarning;
      HeaderWarningIsComment();
    } else if i == |split| - 1 {
      assert split[i] == [];
    } else {
      var sorted := SortedIds(m.ids);
      assert split[i] == sorted[i - 2];
      assert sorted[i - 2] in sorted;
      StripUnchanged(split[i]);
    }
  }

  /** When every line that reads as an id reads as a member of `ids`, the lines name only members of `ids`. */
  lemma LineIdsWithin(lines: seq<string>, ids: set<string>)
    requires forall i :: 0 <= i < |lines| && IsIdLine(Strip(lines[i])) ==> Strip(lines[i]) in ids
    ensures LineIds(lines) <= ids
  {
    forall id | id in LineIds(lines)
      ensures id in ids
    {
      var line :| line in lines && IsIdLine(Strip(line)) && Strip(line) == id;
      var i :| 0 <= i < |lines| && lines[i] == line;
    }
  }

  lemma SavedLinesOnlyIds(m: Manifest)
    requires forall id :: id in m.ids ==> IsCleanId(id)
    ensures LineIds(SavedLines(m) + [[]]) <= m.ids
  {
    var split := SavedLines(m) + [[]];
    forall i | 0 <= i < |split| && IsIdLine(Strip(split[i]))
      ensures Strip(split[i]) in m.ids
    {
      SavedLineNamesId(m, i);
    }
    LineIdsWithin(split, m.ids);
  }

  /** Saving and loading gives back the same ids whenever every id is clean. */
  lemma SaveThenLoad(m: Manifest)
    requires forall id :: id in m.ids ==> IsCleanId(id)
    ensures Parse(Some(Serialize(m))) == m
  {
    SavedTextReadsBack(m);
    SavedLinesCoverIds(m);
    SavedLinesOnlyIds(m);
  }

  // ---------------------------------------------------------------------------
  // Set operations
  // ---------------------------------------------------------------------------

  /** `Manifest.skill_ids`: a copy of the ids. */
  function SkillIds(m: Manifest): (r: set<string>)
    ensures forall id :: id in r <==> Contains(m, id)
  {
    m.ids
  }

  /** `Manifest.add`: `id` becomes a member and no other id changes. */
  function Add(m: Manifest, id: string): (r: Manifest)
    ensures id in r.ids
    ensures forall x :: x != id ==> (x in r.ids <==> x in m.ids)
  {
    Manifest(m.ids + {id})
  }

  /** `Manifest.remove`: `id` stops being a member and no other id changes; an absent id is fine. */
  function Remove(m: Manifest, id: string): (r: Manifest)
    ensures id !in r.ids
    ensures forall x :: x != id ==> (x in r.ids <==> x in m.ids)
  {
    Manifest(m.ids - {id})
  }

  /** `Manifest.set_skills`: the ids become exactly the given ones, whatever they were before. */
  function SetSkills(m: Manifest, ids: set<string>): (r: Manifest)
    ensures forall x :: x in r.ids <==> x in ids
  {
    Manifest(ids)
  }

  /** `Manifest.contains`. */
  function Contains(m: Manifest, id: string): (r: bool)
    ensures r <==> id in m.ids
  {
    id in m.ids
  }

  /** `Manifest.is_empty`. */
  function IsEmpty(m: Manifest): (r: bool)
    ensures r <==> forall x :: x !in m.ids
  {
    |m.ids| == 0
  }

  /** Removing an id the manifest does not hold changes nothing. */
  lemma RemoveAbsentIsNoOp(m: Manifest, id: string)
    requires !Contains(m, id)
    ensures Remove(m, id) == m
  {
  }

  /** Adding then removing an id leaves the manifest as removing alone would. */
  lemma AddThenRemove(m: Manifest, id: string)
    ensures Remove(Add(m, id), id) == Remove(m, id)
  {
  }

  /** Adding an id the manifest already holds changes nothing. */
  lemma AddPresentIsNoOp(m: Manifest, id: string)
    requires Contains(m, id)
    ensures Add(m, id) == m
  {
  }

  /** The empty manifest is empty; one with an added id is not. */
  lemma EmptinessAfterAdd(m: Manifest, id: string)
    ensures IsEmpty(Parse(None))
    ensures !IsEmpty(Add(m, id)) && Contains(Add(m, id), id)
  {
  }
}

=== FILE: suggest.dfy ===
/**
 * The suggestion engine (`Catalog.suggest` in `catalog.py`): query
 * tokenisation, the additive per-record score, and the ranking that orders
 * matches by score descending, then id ascending, truncated to a limit.
 */
module Suggestion {
  import opened Text
  import opened SkillCatalog

  /** A matched record with its score (`ScoredSkill`). */
  datatype ScoredSkill = ScoredSkill(skill: Skill, score: int)

  // ---------------------------------------------------------------------------
  // Tokenising the query
  // ---------------------------------------------------------------------------

  /** The characters the tokeniser keeps: ASCII letters and digits. */
  predicate IsWordChar(c: char) {
    'a' <= c <= 'z' || 'A' <= c <= 'Z' || '0' <= c <= '9'
  }

  predicate IsDelimiter(c: char) {
    !IsWordChar(c)
  }

  predicate IsWord(w: string) {
    |w| > 0 && forall k :: 0 <= k < |w| ==> IsWordChar(w[k])
  }

  /** The non-empty strings of `pieces`, in order (the `if t` filter). */
  function NonEmpty(pieces: seq<string>): (r: seq<string>)
    ensures forall i :: 0 <= i < |r| ==> |r[i]| > 0
    decreases |pieces|
  {
    if pieces == [] then []
    else if pieces[0] == [] then NonEmpty(pieces[1..])
    else [pieces[0]] + NonEmpty(pieces[1..])
  }

  /** Scanner behind the tokeniser: `word` is the run of word characters read so far. */
  function Scan(s: string, word: string): (r: seq<string>)
    requires forall k :: 0 <= k < |word| ==> IsWordChar(word[k])
    ensures forall i :: 0 <= i < |r| ==> IsWord(r[i])
    decreases |s|
  {
    var flushed := if word == [] then [] else [word];
    if s == [] then flushed
    else if IsWordChar(s[0]) then Scan(s[1..], word + [s[0]])
    else flushed + Scan(s[1..], [])
  }

  /** The query's tokens: its maximal runs of ASCII letters and digits, in order. */
  function Tokens(q: string): (r: seq<string>)
    ensures forall i :: 0 <= i < |r| ==> IsWord(r[i])
  {
    Scan(q, [])
  }

  lemma {:induction false} NonEmptyConcat(a: seq<string>, b: seq<string>)
    ensures NonEmpty(a + b) == NonEmpty(a) + NonEmpty(b)
    decreases |a|
  {
    if a != [] {
      NonEmptyConcat(a[1..], b);
      assert (a + b)[1..] == a[1..] + b;
    } else {
      assert a + b == b;
    }
  }

  /** What the scanner promises about a suffix, stated against the pieces of `Split`. */
  predicate ScansAsPieces(s: string, word: string)
    requires forall k :: 0 <= k < |word| ==> IsWordChar(word[k])
  {
    var p := Split(s, IsDelimiter);
    Scan(s, word) == NonEmpty([word + p[0]] + p[1..])
  }

  lemma NonEmptySingle(word: string)
    ensures NonEmpty([word]) == (if word == [] then [] else [word])
  {
    assert [word][1..] == [];
  }

  /** A word character extends the current piece. */
  lemma ScanWordStep(s: string, word: string)
    requires |s| > 0 && IsWordChar(s[0])
    requires forall k :: 0 <= k < |word| ==> IsWordChar(word[k])
    requires ScansAsPieces(s[1..], word + [s[0]])
    ensures ScansAsPieces(s, word)
  {
    var p := Split(s, IsDelimiter);
    var rest := Split(s[1..], IsDelimiter);
    assert p == [[s[0]] + rest[0]] + rest[1..];
    assert word + [s[0]] + rest[0] == word + p[0];
  }

  /** A delimiter ends the current piece and starts an empty one. */
  lemma ScanDelimiterStep(s: string, word: string)
    requires |s| > 0 && !IsWordChar(s[0])
    requires forall k :: 0 <= k < |word| ==> IsWordChar(word[k])
    requires ScansAsPieces(s[1..], [])
    ensures ScansAsPieces(s, word)
  {
    var p := Split(s, IsDelimiter);
    var rest := Split(s[1..], IsDelimiter);
    var empty: string := [];
    assert p == [[]] + rest;
    assert empty + rest[0] == rest[0];
    assert [rest[0]] + rest[1..] == rest;
    assert word + p[0] == word;
    NonEmptyConcat([word], rest);
    assert [word + p[0]] + p[1..] == [word] + rest;
    NonEmptySingle(word);
  }

  lemma {:induction false} ScanSplits(s: string, word: string)
    requires forall k :: 0 <= k < |word| ==> IsWordChar(word[k])
    ensures ScansAsPieces(s, word)
    decreases |s|
  {
    if s == [] {
      assert word + Split(s, IsDelimiter)[0] == word;
      NonEmptySingle(word);
    } else if IsWordChar(s[0]) {
      ScanSplits(s[1..], word + [s[0]]);
      ScanWordStep(s, word);
    } else {
      ScanSplits(s[1..], []);
      ScanDelimiterStep(s, word);
    }
  }

  /** The tokens are exactly the non-empty pieces between delimiter characters (`re.split` plus the `if t` filter). */
  lemma TokensAreNonEmptyPieces(q: string)
    ensures Tokens(q) == NonEmpty(Split(q, IsDelimiter))
  {
    var p := Split(q, IsDelimiter);
    ScanSplits(q, []);
    var empty: string := [];
    assert empty + p[0] == p[0];
    assert [p[0]] + p[1..] == p;
  }

  // ---------------------------------------------------------------------------
  // Scoring one record
  // ---------------------------------------------------------------------------

  /** Points an id or alias earns against the lower-cased query `q`: exact +100, otherwise prefix +40. */
  function NameScore(name: string, q: string): (r: int)
    ensures r == 100 <==> Lower(name) == q
    ensures r == 40 <==> Lower(name) != q && StartsWith(Lower(name), q)
    ensures r == 0 <==> !StartsWith(Lower(name), q)
  {
    var n := Lower(name);
    if n == q then 100 else if StartsWith(n, q) then 40 else 0
  }

  /** The summed points of every alias, each judged on its own. */
  function AliasScore(aliases: seq<string>, q: string): (r: int)
    ensures r >= 0
    decreases |aliases|
  {
    if aliases == [] then 0 else NameScore(aliases[0], q) + AliasScore(aliases[1..], q)
  }

  /** The number of elements of `xs` that satisfy `p`. */
  function Count(xs: seq<string>, p: string -> bool): (r: nat)
    ensures r <= |xs|
    decreases |xs|
  {
    if xs == [] then 0 else (if p(xs[0]) then 1 else 0) + Count(xs[1..], p)
  }

  predicate ExactName(q: string, name: string) {
    Lower(name) == q
  }

  predicate PrefixOnlyName(q: string, name: string) {
    Lower(name) != q && StartsWith(Lower(name), q)
  }

  /** Alias points stack: 100 per exactly matching alias plus 40 per alias matching only as a prefix. */
  lemma {:induction false} AliasScoreCounts(aliases: seq<string>, q: string)
    ensures AliasScore(aliases, q)
         == 100 * Count(aliases, name => ExactName(q, name)) + 40 * Count(aliases, name => PrefixOnlyName(q, name))
    decreases |aliases|
  {
    if aliases != [] {
      AliasScoreCounts(aliases[1..], q);
    }
  }

  /** Some lower-cased tag contains `token`. */
  predicate TagHit(tags: seq<string>, token: string)
    ensures TagHit(tags, token) <==> exists i :: 0 <= i < |tags| && Contains(Lower(tags[i]), token)
    decreases |tags|
  {
    if tags == [] then false
    else
      assert forall i :: 1 <= i < |tags| ==> tags[i] == tags[1..][i - 1];
      Contains(Lower(tags[0]), token) || TagHit(tags[1..], token)
  }

  predicate TitleHit(s: Skill, token: string) {
    Contains(Lower(s.title), token)
  }

  predicate DescriptionHit(s: Skill, token: string) {
    Contains(Lower(s.description), token)
  }

  /** Points one token earns: tag +20 (at most once), title +10, description +5. */
  function TokenPoints(s: Skill, token: string): int {
    (if TagHit(s.tags, token) then 20 else 0)
    + (if TitleHit(s, token) then 10 else 0)
    + (if DescriptionHit(s, token) then 5 else 0)
  }

  /** The summed points of every token. */
  function TokensScore(s: Skill, tokens: seq<string>): (r: int)
    ensures r >= 0
    decreases |tokens|
  {
    if tokens == [] then 0 else TokenPoints(s, tokens[0]) + TokensScore(s, tokens[1..])
  }

  /** Token points add up independently: 20 per token found in a tag, 10 per token in the title, 5 per token in the description. */
  lemma {:induction false} TokensScoreCounts(s: Skill, tokens: seq<string>)
    ensures TokensScore(s, tokens)
         == 20 * Count(tokens, t => TagHit(s.tags, t))
          + 10 * Count(tokens, t => TitleHit(s, t))
          + 5 * Count(tokens, t => DescriptionHit(s, t))
    decreases |tokens|
  {
    if tokens != [] {
      TokensScoreCounts(s, tokens[1..]);
    }
  }

  /** The score of record `s` against the lower-cased query `q`. */
  function Score(s: Skill, q: string): int {
    NameScore(s.id, q) + AliasScore(s.aliases, q) + TokensScore(s, Tokens(q))
  }

  /** Some scoring rule fires for `s`: an id or alias prefix (exact included), or a token hit. */
  predicate AnySignal(s: Skill, q: string) {
    || StartsWith(Lower(s.id), q)
    || (exists i :: 0 <= i < |s.aliases| && StartsWith(Lower(s.aliases[i]), q))
    || (exists t :: t in Tokens(q) && (TagHit(s.tags, t) || TitleHit(s, t) || DescriptionHit(s, t)))
  }

  lemma {:induction false} AliasScorePositive(aliases: seq<string>, q: string)
    ensures AliasScore(aliases, q) > 0 <==> exists i :: 0 <= i < |aliases| && StartsWith(Lower(aliases[i]), q)
    decreases |aliases|
  {
    if aliases != [] {
      AliasScorePositive(aliases[1..], q);
      assert forall i :: 1 <= i < |aliases| ==> aliases[i] == aliases[1..][i - 1];
    }
  }

  lemma {:induction false} TokensScorePositive(s: Skill, tokens: seq<string>)
    ensures TokensScore(s, tokens) > 0
        <==> exists t :: t in tokens && (TagHit(s.tags, t) || TitleHit(s, t) || DescriptionHit(s, t))
    decreases |tokens|
  {
    if tokens != [] {
      TokensScorePositive(s, tokens[1..]);
      assert forall t :: t in tokens <==> t == tokens[0] || t in tokens[1..];
    }
  }

  /** A record scores above zero exactly when some rule fires; the score is never negative. */
  lemma ScorePositiveIff(s: Skill, q: string)
    ensures Score(s, q) >= 0
    ensures Score(s, q) > 0 <==> AnySignal(s, q)
  {
    AliasScorePositive(s.aliases, q);
    TokensScorePositive(s, Tokens(q));
  }

  /** An empty query is a prefix of every id, so every record with a non-empty id earns the 40 prefix points. */
  lemma EmptyQueryPrefixesEveryId(s: Skill)
    requires s.id != []
    ensures NameScore(s.id, []) == 40
  {
  }

  // ---------------------------------------------------------------------------
  // Ranking
  // ---------------------------------------------------------------------------

  /** The matches among `skills`, scored, in catalog order (the `if score > 0` filter). */
  function Candidates(skills: seq<Skill>, q: string): (r: seq<ScoredSkill>)
    ensures |r| <= |skills|
    ensures forall i :: 0 <= i < |r| ==> r[i].score > 0 && r[i].score == Score(r[i].skill, q) && r[i].skill in skills
    ensures forall s :: s in skills && Score(s, q) > 0 ==> ScoredSkill(s, Score(s, q)) in r
    decreases |skills|
  {
    if skills == [] then []
    else
      var rest := Candidates(skills[1..], q);
      var score := Score(skills[0], q);
      assert forall s :: s in skills[1..] ==> s in skills;
      if score > 0 then [ScoredSkill(skills[0], score)] + rest else rest
  }

  /** The part `[s]` contributes to the candidates: itself with its score when that is positive. */
  function CandidatePart(s: Skill, q: string): seq<ScoredSkill> {
    if Score(s, q) > 0 then [ScoredSkill(s, Score(s, q))] else []
  }

  lemma CandidatesCons(h: Skill, t: seq<Skill>, q: string)
    ensures Candidates([h] + t, q) == CandidatePart(h, q) + Candidates(t, q)
  {
    assert ([h] + t)[0] == h && ([h] + t)[1..] == t;
  }

  /** A skill on its own is a candidate, with its score, exactly when it scores above zero. */
  lemma CandidatesSingle(s: Skill, q: string)
    ensures Candidates([s], q) == if Score(s, q) > 0 then [ScoredSkill(s, Score(s, q))] else []
  {
    assert [s] == [s] + [];
    CandidatesCons(s, [], q);
  }

  /** Candidates are collected in catalog order: those of a catalog split in two come in the two parts' order. */
  lemma {:induction false} CandidatesConcat(a: seq<Skill>, b: seq<Skill>, q: string)
    ensures Candidates(a + b, q) == Candidates(a, q) + Candidates(b, q)
    decreases |a|
  {
    if a == [] {
      assert a + b == b;
    } else {
      CandidatesConcat(a[1..], b, q);
      CandidatesConcatStep(a[0], a[1..], b, q);
      assert [a[0]] + a[1..] == a;
    }
  }

  /** The step of `CandidatesConcat`: one more skill in front of the first part. */
  lemma CandidatesConcatStep(h: Skill, t: seq<Skill>, b: seq<Skill>, q: string)
    requires Candidates(t + b, q) == Candidates(t, q) + Candidates(b, q)
    ensures Candidates([h] + t + b, q) == Candidates([h] + t, q) + Candidates(b, q)
  {
    var head, ct, cb := CandidatePart(h, q), Candidates(t, q), Candidates(b, q);
    assert Candidates([h] + t + b, q) == head + Candidates(t + b, q) by {
      AppendAssocAny([h], t, b);
      CandidatesCons(h, t + b, q);
    }
    assert Candidates([h] + t, q) == head + ct by {
      CandidatesCons(h, t, q);
    }
    PrependStep(Candidates([h] + t + b, q), Candidates(t + b, q), Candidates([h] + t, q), head, ct, cb);
  }

  lemma AppendAssocAny<T>(x: seq<T>, y: seq<T>, z: seq<T>)
    ensures x + y + z == x + (y + z)
  {
  }

  /** The bookkeeping of a step that puts the same head in front of both sides. */
  lemma PrependStep<T>(whole: seq<T>, rest: seq<T>, left: seq<T>, head: seq<T>, x: seq<T>, y: seq<T>)
    requires whole == head + rest && rest == x + y && left == head + x
    ensures whole == left + y
  {
    ConcatAssoc(head, x, y);
  }

  /** `a` may come before `b`: higher score first, then smaller id (Python's key `(-score, id)`). */
  predicate RanksBefore(a: ScoredSkill, b: ScoredSkill) {
    a.score > b.score || (a.score == b.score && LessOrEqual(a.skill.id, b.skill.id))
  }

  /** `a` must come before `b`: its key is strictly smaller. */
  predicate StrictlyBefore(a: ScoredSkill, b: ScoredSkill) {
    a.score > b.score || (a.score == b.score && Less(a.skill.id, b.skill.id))
  }

  predicate IsRanked(s: seq<ScoredSkill>) {
    forall i, j :: 0 <= i < j < |s| ==> RanksBefore(s[i], s[j])
  }

  lemma RanksBeforeTransitive(a: ScoredSkill, b: ScoredSkill, c: ScoredSkill)
    requires RanksBefore(a, b) && RanksBefore(b, c)
    ensures RanksBefore(a, c)
  {
    if a.score == b.score && b.score == c.score {
      LessOrEqualTransitive(a.skill.id, b.skill.id, c.skill.id);
    }
  }

  lemma NotStrictlyBeforeFlips(a: ScoredSkill, b: ScoredSkill)
    requires !StrictlyBefore(a, b)
    ensures RanksBefore(b, a)
  {
    if a.score == b.score && a.skill.id != b.skill.id {
      LessTotal(a.skill.id, b.skill.id);
    }
  }

  lemma StrictlyBeforeRanks(a: ScoredSkill, b: ScoredSkill)
    requires StrictlyBefore(a, b)
    ensures RanksBefore(a, b)
  {
  }

  /** A record strictly before the head of a ranked list ranks before all of it. */
  lemma BeforeHeadBeforeAll(x: ScoredSkill, s: seq<ScoredSkill>)
    requires IsRanked(s) && |s| > 0 && StrictlyBefore(x, s[0])
    ensures forall j :: 0 <= j < |s| ==> RanksBefore(x, s[j])
  {
    forall j | 0 <= j < |s|
      ensures RanksBefore(x, s[j])
    {
      StrictlyBeforeRanks(x, s[0]);
      if j > 0 {
        RanksBeforeTransitive(x, s[0], s[j]);
      }
    }
  }

  /** A record that ranks before every element of `rest` and before `x` ranks before every element of a permutation of `rest + [x]`. */
  lemma BeforeAllOfPermutation(h: ScoredSkill, x: ScoredSkill, rest: seq<ScoredSkill>, tail: seq<ScoredSkill>)
    requires multiset(tail) == multiset(rest) + multiset{x}
    requires RanksBefore(h, x) && forall j :: 0 <= j < |rest| ==> RanksBefore(h, rest[j])
    ensures forall j :: 0 <= j < |tail| ==> RanksBefore(h, tail[j])
  {
    forall j | 0 <= j < |tail|
      ensures RanksBefore(h, tail[j])
    {
      assert tail[j] in multiset(tail);
      if tail[j] != x {
        assert tail[j] in multiset(rest);
        var k :| 0 <= k < |rest| && rest[k] == tail[j];
      }
    }
  }

  /** `head` followed by a ranked list it ranks before is ranked. */
  lemma ConsRanked(head: ScoredSkill, s: seq<ScoredSkill>)
    requires IsRanked(s) && forall j :: 0 <= j < |s| ==> RanksBefore(head, s[j])
    ensures IsRanked([head] + s)
  {
  }

  /** Places `x` into a ranked sequence after every element it does not strictly precede. */
  function Insert(x: ScoredSkill, s: seq<ScoredSkill>): (r: seq<ScoredSkill>)
    requires IsRanked(s)
    ensures IsRanked(r)
    ensures multiset(r) == multiset(s) + multiset{x}
    decreases |s|
  {
    if s == [] then [x]
    else if StrictlyBefore(x, s[0]) then
      BeforeHeadBeforeAll(x, s);
      ConsRanked(x, s);
      [x] + s
    else
      var tail := Insert(x, s[1..]);
      assert s == [s[0]] + s[1..];
      NotStrictlyBeforeFlips(x, s[0]);
      BeforeAllOfPermutation(s[0], x, s[1..], tail);
      ConsRanked(s[0], tail);
      [s[0]] + tail
  }

  /** A stable insertion sort by `RanksBefore`: each element is inserted after the equal-keyed ones before it. */
  function Rank(s: seq<ScoredSkill>): (r: seq<ScoredSkill>)
    ensures IsRanked(r)
    ensures multiset(r) == multiset(s)
    decreases |s|
  {
    if s == [] then []
    else
      assert s == s[..|s| - 1] + [s[|s| - 1]];
      Insert(s[|s| - 1], Rank(s[..|s| - 1]))
  }

  /** The entries of `s` with the sort key (`score`, `id`), in their order in `s`. */
  function WithKey(s: seq<ScoredSkill>, score: int, id: string): (r: seq<ScoredSkill>)
    ensures forall x :: x in r <==> x in s && x.score == score && x.skill.id == id
    decreases |s|
  {
    if s == [] then []
    else (if s[0].score == score && s[0].skill.id == id then [s[0]] else []) + WithKey(s[1..], score, id)
  }

  lemma {:induction false} WithKeyConcat(a: seq<ScoredSkill>, b: seq<ScoredSkill>, score: int, id: string)
    ensures WithKey(a + b, score, id) == WithKey(a, score, id) + WithKey(b, score, id)
    decreases |a|
  {
    if a == [] {
      assert a + b == b;
    } else {
      assert (a + b)[0] == a[0] && (a + b)[1..] == a[1..] + b;
      WithKeyConcat(a[1..], b, score, id);
    }
  }

  /** Nothing in a ranked list that `x` strictly precedes shares `x`'s key. */
  lemma NoEqualKeyAfter(x: ScoredSkill, s: seq<ScoredSkill>)
    requires IsRanked(s) && |s| > 0 && StrictlyBefore(x, s[0])
    ensures WithKey(s, x.score, x.skill.id) == []
  {
    if WithKey(s, x.score, x.skill.id) != [] {
      var y := WithKey(s, x.score, x.skill.id)[0];
      assert y in s;
      var j :| 0 <= j < |s| && s[j] == y;
      assert RanksBefore(s[0], y);
      if x.score == s[0].score {
        LessAsymmetric(x.skill.id, s[0].skill.id);
        LessIrreflexive(x.skill.id);
      }
      assert false;
    }
  }

  /** The part of `[x]` with the key (`score`, `id`). */
  function KeyPart(x: ScoredSkill, score: int, id: string): seq<ScoredSkill> {
    if x.score == score && x.skill.id == id then [x] else []
  }

  lemma WithKeyCons(h: ScoredSkill, t: seq<ScoredSkill>, score: int, id: string)
    ensures WithKey([h] + t, score, id) == KeyPart(h, score, id) + WithKey(t, score, id)
  {
    assert ([h] + t)[0] == h && ([h] + t)[1..] == t;
  }

  /** Insertion places `x` after every entry that has its key. */
  lemma {:induction false} InsertAfterEqualKeys(x: ScoredSkill, s: seq<ScoredSkill>, score: int, id: string)
    requires IsRanked(s)
    ensures WithKey(Insert(x, s), score, id) == WithKey(s, score, id) + KeyPart(x, score, id)
    decreases |s|
  {
    if s == [] {
      assert Insert(x, s) == [x];
      WithKeyCons(x, [], score, id);
      assert KeyPart(x, score, id) + [] == [] + KeyPart(x, score, id);
    } else if StrictlyBefore(x, s[0]) {
      InsertFrontKeys(x, s, score, id);
    } else {
      InsertAfterEqualKeys(x, s[1..], score, id);
      InsertConsStep(x, s, score, id);
    }
  }

  /** The step where `x` goes in front: nothing after it shares its key. */
  lemma InsertFrontKeys(x: ScoredSkill, s: seq<ScoredSkill>, score: int, id: string)
    requires IsRanked(s) && |s| > 0 && StrictlyBefore(x, s[0])
    ensures WithKey(Insert(x, s), score, id) == WithKey(s, score, id) + KeyPart(x, score, id)
  {
    var xPart, rest := KeyPart(x, score, id), WithKey(s, score, id);
    assert Insert(x, s) == [x] + s;
    WithKeyCons(x, s, score, id);
    if x.score == score && x.skill.id == id {
      NoEqualKeyAfter(x, s);
      assert xPart + [] == [] + xPart;
    } else {
      assert [] + rest == rest + [];
    }
  }

  /** When `x` does not rank strictly before the head, the head stays in front. */
  lemma InsertAfterHead(x: ScoredSkill, s: seq<ScoredSkill>)
    requires IsRanked(s) && |s| > 0 && !StrictlyBefore(x, s[0])
    ensures Insert(x, s) == [s[0]] + Insert(x, s[1..])
  {
  }

  /** Putting the same entry in front of two sequences keeps a key-wise relation between them. */
  lemma KeyedCons(h: ScoredSkill, t: seq<ScoredSkill>, t': seq<ScoredSkill>, xPart: seq<ScoredSkill>, score: int, id: string)
    requires WithKey(t', score, id) == WithKey(t, score, id) + xPart
    ensures WithKey([h] + t', score, id) == WithKey([h] + t, score, id) + xPart
  {
    var head := KeyPart(h, score, id);
    WithKeyCons(h, t', score, id);
    WithKeyCons(h, t, score, id);
    ConcatAssoc(head, WithKey(t, score, id), xPart);
  }

  lemma ConcatAssoc<T>(a: seq<T>, b: seq<T>, c: seq<T>)
    ensures a + (b + c) == (a + b) + c
  {
  }

  /** The step where `x` goes after the head: the head's part comes first, the rest follows the induction. */
  lemma InsertConsStep(x: ScoredSkill, s: seq<ScoredSkill>, score: int, id: string)
    requires IsRanked(s) && |s| > 0 && !StrictlyBefore(x, s[0])
    requires WithKey(Insert(x, s[1..]), score, id) == WithKey(s[1..], score, id) + KeyPart(x, score, id)
    ensures WithKey(Insert(x, s), score, id) == WithKey(s, score, id) + KeyPart(x, score, id)
  {
    var tail := Insert(x, s[1..]);
    assert Insert(x, s) == [s[0]] + tail by {
      InsertAfterHead(x, s);
    }
    assert s == [s[0]] + s[1..];
    KeyedCons(s[0], s[1..], tail, KeyPart(x, score, id), score, id);
  }

  /** A prefix keeps, for every key, a prefix of the entries with that key. */
  lemma WithKeyPrefix(r: seq<ScoredSkill>, s: seq<ScoredSkill>, score: int, id: string)
    requires r <= s
    ensures WithKey(r, score, id) <= WithKey(s, score, id)
  {
    assert s == r + s[|r|..];
    WithKeyConcat(r, s[|r|..], score, id);
  }

  /**
   * A slice of the sorted list keeps each key's entries in their catalog order:
   * for every (score, id), the returned entries with that key are the first ones
   * among the matches.
   */
  lemma SliceKeepsKeyOrder(cands: seq<ScoredSkill>, r: seq<ScoredSkill>)
    requires r <= Rank(cands)
    ensures forall score: int, id: string :: WithKey(r, score, id) <= WithKey(cands, score, id)
  {
    forall score: int, id: string
      ensures WithKey(r, score, id) <= WithKey(cands, score, id)
    {
      WithKeyPrefix(r, Rank(cands), score, id);
      RankIsStable(cands, score, id);
    }
  }

  /** Inserting the next entry into a stably sorted prefix keeps it stably sorted. */
  lemma StableInsertStep(init: seq<ScoredSkill>, last: ScoredSkill, ranked: seq<ScoredSkill>, score: int, id: string)
    requires IsRanked(ranked) && WithKey(ranked, score, id) == WithKey(init, score, id)
    ensures WithKey(Insert(last, ranked), score, id) == WithKey(init + [last], score, id)
  {
    InsertAfterEqualKeys(last, ranked, score, id);
    WithKeyConcat(init, [last], score, id);
    WithKeyCons(last, [], score, id);
    assert [last] + [] == [last];
  }

  /** The sort is stable: entries with the same key keep their relative order. */
  lemma {:induction false} RankIsStable(s: seq<ScoredSkill>, score: int, id: string)
    ensures WithKey(Rank(s), score, id) == WithKey(s, score, id)
    decreases |s|
  {
    if s != [] {
      var init, last := s[..|s| - 1], s[|s| - 1];
      assert s == init + [last];
      RankIsStable(init, score, id);
      StableInsertStep(init, last, Rank(init), score, id);
    }
  }

  /** Python's `s[:limit]`, including the negative-limit case that counts from the end. */
  function SliceTo<T>(s: seq<T>, limit: int): (r: seq<T>)
    ensures r <= s
    ensures limit >= 0 ==> |r| == if limit < |s| then limit else |s|
    ensures limit < 0 ==> |r| == if |s| + limit > 0 then |s| + limit else 0
  {
    if limit >= 0 then (if limit < |s| then s[..limit] else s)
    else if |s| + limit > 0 then s[..|s| + limit]
    else []
  }

  /** A prefix of a ranked list is ranked. */
  lemma RankedPrefix(r: seq<ScoredSkill>, s: seq<ScoredSkill>)
    requires IsRanked(s) && r <= s
    ensures IsRanked(r)
  {
    forall i, j | 0 <= i < j < |r|
      ensures RanksBefore(r[i], r[j])
    {
      assert r[i] == s[i] && r[j] == s[j];
    }
  }

  /** Every element of a prefix of a permutation of `cands` is an element of `cands`. */
  lemma PrefixOfPermutation(r: seq<ScoredSkill>, ranked: seq<ScoredSkill>, cands: seq<ScoredSkill>)
    requires r <= ranked && multiset(ranked) == multiset(cands)
    ensures forall i :: 0 <= i < |r| ==> r[i] in cands
  {
    forall i | 0 <= i < |r|
      ensures r[i] in cands
    {
      assert r[i] == ranked[i];
      assert ranked[i] in multiset(ranked);
    }
  }

  /** A prefix of a permutation of `cands` takes each element of `cands` at most as often as `cands` holds it. */
  lemma PrefixOfPermutationMultiset(r: seq<ScoredSkill>, ranked: seq<ScoredSkill>, cands: seq<ScoredSkill>)
    requires r <= ranked && multiset(ranked) == multiset(cands)
    ensures multiset(r) <= multiset(cands)
  {
    assert ranked == r + ranked[|r|..];
  }

  /** `Catalog.suggest(query, limit)`. */
  function Suggest(c: Catalog, query: string, limit: int): (r: seq<ScoredSkill>)
    ensures IsRanked(r)
    ensures forall i :: 0 <= i < |r| ==>
              r[i].score > 0 && r[i].score == Score(r[i].skill, Lower(query)) && r[i].skill in c.skills
    ensures var n := |Candidates(c.skills, Lower(query))|;
            limit >= 0 ==> |r| == if limit < n then limit else n
    ensures var n := |Candidates(c.skills, Lower(query))|;
            limit < 0 ==> |r| == if n + limit > 0 then n + limit else 0
    ensures multiset(r) <= multiset(Candidates(c.skills, Lower(query)))
    ensures limit >= |Candidates(c.skills, Lower(query))| ==> multiset(r) == multiset(Candidates(c.skills, Lower(query)))
    ensures forall score: int, id: string ::
              WithKey(r, score, id) <= WithKey(Candidates(c.skills, Lower(query)), score, id)
  {
    var cands := Candidates(c.skills, Lower(query));
    var ranked := Rank(cands);
    var r := SliceTo(ranked, limit);
    assert IsRanked(r) by {
      RankedPrefix(r, ranked);
    }
    PrefixOfPermutation(r, ranked, cands);
    PrefixOfPermutationMultiset(r, ranked, cands);
    SliceKeepsKeyOrder(cands, r);
    r
  }

  // ---------------------------------------------------------------------------
  // Properties of the ranking
  // ---------------------------------------------------------------------------

  lemma MultisetSuffix<T>(s: seq<T>, k: nat)
    requires k <= |s|
    ensures multiset(s) - multiset(s[..k]) == multiset(s[k..])
  {
    assert s == s[..k] + s[k..];
  }

  /** In a ranked sequence, every element of a prefix ranks no later than every element after it. */
  lemma RankedPrefixFirst(ranked: seq<ScoredSkill>, k: nat, x: ScoredSkill, y: ScoredSkill)
    requires IsRanked(ranked) && k <= |ranked|
    requires x in ranked[..k] && y in multiset(ranked) - multiset(ranked[..k])
    ensures RanksBefore(x, y)
  {
    MultisetSuffix(ranked, k);
    assert y in multiset(ranked[k..]);
    var j :| 0 <= j < |ranked[k..]| && ranked[k..][j] == y;
    var i :| 0 <= i < k && ranked[..k][i] == x;
    assert ranked[i] == x && ranked[k + j] == y;
  }

  /** Truncation keeps the best matches: every match left out ranks no earlier than every match returned. */
  lemma SuggestKeepsTopMatches(c: Catalog, query: string, limit: int, x: ScoredSkill, y: ScoredSkill)
    ensures var r := Suggest(c, query, limit);
            x in r && y in multiset(Candidates(c.skills, Lower(query))) - multiset(r) ==> RanksBefore(x, y)
  {
    var cands := Candidates(c.skills, Lower(query));
    var ranked := Rank(cands);
    var r := Suggest(c, query, limit);
    if x in r && y in multiset(cands) - multiset(r) {
      assert r == SliceTo(ranked, limit);
      assert r == ranked[..|r|];
      RankedPrefixFirst(ranked, |r|, x, y);
    }
  }

  /** The query matters only through its lower-cased form. */
  lemma SuggestCaseInsensitive(c: Catalog, query: string, limit: int)
    ensures Suggest(c, query, limit) == Suggest(c, Lower(query), limit)
  {
    LowerIdempotent(query);
  }

  // ---------------------------------------------------------------------------
  // The ranking does not depend on catalog order when ids are unique
  // ---------------------------------------------------------------------------

  predicate SameKey(a: ScoredSkill, b: ScoredSkill) {
    a.score == b.score && a.skill.id == b.skill.id
  }

  /** No two different entries share a ranking key. */
  predicate KeysUnique(s: seq<ScoredSkill>) {
    forall i, j :: 0 <= i < |s| && 0 <= j < |s| && SameKey(s[i], s[j]) ==> s[i] == s[j]
  }

  predicate IdsUnique(skills: seq<Skill>) {
    forall i, j :: 0 <= i < j < |skills| ==> skills[i].id != skills[j].id
  }

  lemma RankedFirstIsLeast(a: seq<ScoredSkill>, y: ScoredSkill)
    requires IsRanked(a) && |a| > 0 && y in multiset(a)
    ensures RanksBefore(a[0], y)
  {
    var j :| 0 <= j < |a| && a[j] == y;
    if j == 0 {
      assert LessOrEqual(y.skill.id, y.skill.id);
    }
  }

  lemma RanksBeforeAntisymmetric(a: ScoredSkill, b: ScoredSkill)
    requires RanksBefore(a, b) && RanksBefore(b, a)
    ensures SameKey(a, b)
  {
    if a.skill.id != b.skill.id {
      LessAsymmetric(a.skill.id, b.skill.id);
    }
  }

  lemma RankedHeadsAgree(a: seq<ScoredSkill>, b: seq<ScoredSkill>)
    requires IsRanked(a) && IsRanked(b) && multiset(a) == multiset(b) && KeysUnique(a) && |a| > 0
    ensures |b| > 0 && a[0] == b[0]
  {
    assert a[0] in multiset(b);
    assert b[0] in multiset(a);
    RankedFirstIsLeast(b, a[0]);
    RankedFirstIsLeast(a, b[0]);
    RanksBeforeAntisymmetric(a[0], b[0]);
    var j :| 0 <= j < |a| && a[j] == b[0];
    assert SameKey(a[0], a[j]);
  }

  lemma KeysUniqueTail(a: seq<ScoredSkill>)
    requires KeysUnique(a) && |a| > 0
    ensures KeysUnique(a[1..])
  {
    forall i, j | 0 <= i < |a[1..]| && 0 <= j < |a[1..]| && SameKey(a[1..][i], a[1..][j])
      ensures a[1..][i] == a[1..][j]
    {
      assert a[1..][i] == a[i + 1] && a[1..][j] == a[j + 1];
    }
  }

  lemma MultisetTail(a: seq<ScoredSkill>)
    requires |a| > 0
    ensures multiset(a[1..]) == multiset(a) - multiset{a[0]}
  {
    assert a == [a[0]] + a[1..];
  }

  /** Two rankings of the same entries are identical when no two different entries share a key. */
  lemma {:induction false} RankedUnique(a: seq<ScoredSkill>, b: seq<ScoredSkill>)
    requires IsRanked(a) && IsRanked(b) && multiset(a) == multiset(b) && KeysUnique(a)
    ensures a == b
    decreases |a|
  {
    if a == [] {
      assert |multiset(b)| == 0;
    } else {
      RankedHeadsAgree(a, b);
      MultisetTail(a);
      MultisetTail(b);
      KeysUniqueTail(a);
      RankedUnique(a[1..], b[1..]);
      assert a == [a[0]] + a[1..] && b == [b[0]] + b[1..];
    }
  }

  /** How many times each scored entry occurs among the candidates depends only on how often its record occurs. */
  lemma {:induction false} CandidatesMultiplicity(skills: seq<Skill>, q: string, x: ScoredSkill)
    ensures multiset(Candidates(skills, q))[x]
         == if x.score > 0 && x.score == Score(x.skill, q) then multiset(skills)[x.skill] else 0
    decreases |skills|
  {
    if skills != [] {
      CandidatesMultiplicity(skills[1..], q, x);
      var s0 := skills[0];
      var rest := Candidates(skills[1..], q);
      assert skills == [s0] + skills[1..];
      assert multiset(skills)[x.skill] == multiset([s0])[x.skill] + multiset(skills[1..])[x.skill];
      if Score(s0, q) > 0 {
        var head := ScoredSkill(s0, Score(s0, q));
        assert Candidates(skills, q) == [head] + rest;
        assert multiset(Candidates(skills, q))[x] == multiset([head])[x] + multiset(rest)[x];
      } else {
        assert Candidates(skills, q) == rest;
      }
    }
  }

  lemma CandidatesKeysUnique(skills: seq<Skill>, q: string)
    requires IdsUnique(skills)
    ensures KeysUnique(Candidates(skills, q))
  {
    var cands := Candidates(skills, q);
    forall i, j | 0 <= i < |cands| && 0 <= j < |cands| && SameKey(cands[i], cands[j])
      ensures cands[i] == cands[j]
    {
      var a :| 0 <= a < |skills| && skills[a] == cands[i].skill;
      var b :| 0 <= b < |skills| && skills[b] == cands[j].skill;
      assert skills[a].id == skills[b].id;
    }
  }

  /** With unique ids, reordering the catalog does not change any suggestion: ties are broken by id alone. */
  lemma SuggestIgnoresCatalogOrder(c1: Catalog, c2: Catalog, query: string, limit: int)
    requires multiset(c1.skills) == multiset(c2.skills) && IdsUnique(c1.skills)
    ensures Suggest(c1, query, limit) == Suggest(c2, query, limit)
  {
    var q := Lower(query);
    var a := Candidates(c1.skills, q);
    var b := Candidates(c2.skills, q);
    forall x
      ensures multiset(a)[x] == multiset(b)[x]
    {
      CandidatesMultiplicity(c1.skills, q, x);
      CandidatesMultiplicity(c2.skills, q, x);
    }
    assert multiset(a) == multiset(b);
    CandidatesKeysUnique(c1.skills, q);
    var ra := Rank(a);
    var rb := Rank(b);
    assert KeysUnique(ra) by {
      forall i, j | 0 <= i < |ra| && 0 <= j < |ra| && SameKey(ra[i], ra[j])
        ensures ra[i] == ra[j]
      {
        assert ra[i] in multiset(a) && ra[j] in multiset(a);
        var i' :| 0 <= i' < |a| && a[i'] == ra[i];
        var j' :| 0 <= j' < |a| && a[j'] == ra[j];
      }
    }
    RankedUnique(ra, rb);
  }
}

=== FILE: text.dfy ===
/**
 * String helpers shared by the catalog, the suggestion engine and the manifest:
 * ASCII lower-casing, whitespace stripping, substring search, code-point
 * ordering and splitting at separator characters.
 *
 * Python's `str.lower` and `str.strip` are Unicode-aware; this module models
 * them over ASCII only (characters outside ASCII are left unchanged and are
 * never treated as whitespace).
 */
module Text {

  // ---------------------------------------------------------------------------
  // Lower-casing
  // ---------------------------------------------------------------------------

  predicate IsAsciiUpper(c: char) {
    'A' <= c <= 'Z'
  }

  function LowerChar(c: char): char {
    if IsAsciiUpper(c) then (c as int + 32) as char else c
  }

  /** `str.lower()` restricted to ASCII. */
  function Lower(s: string): (r: string)
    ensures |r| == |s|
    ensures forall i :: 0 <= i < |r| ==> !IsAsciiUpper(r[i])
    ensures forall i :: 0 <= i < |s| && !IsAsciiUpper(s[i]) ==> r[i] == s[i]
    ensures forall i :: 0 <= i < |s| && IsAsciiUpper(s[i]) ==> r[i] as int == s[i] as int + 32
  {
    seq(|s|, i requires 0 <= i < |s| => LowerChar(s[i]))
  }

  /** Lower-casing an already lower-cased string changes nothing. */
  lemma LowerIdempotent(s: string)
    ensures Lower(Lower(s)) == Lower(s)
  {
  }

  // ---------------------------------------------------------------------------
  // Whitespace stripping
  // ---------------------------------------------------------------------------

  /** The ASCII characters Python's `str.isspace` accepts. */
  predicate IsSpace(c: char) {
    c == ' ' || 9 <= c as int <= 13 || 28 <= c as int <= 31
  }

  predicate AllSpace(s: string) {
    forall k :: 0 <= k < |s| ==> IsSpace(s[k])
  }

  /** The end of the whitespace run that starts at `i`. */
  function SpaceRunEnd(s: string, i: nat): (n: nat)
    requires i <= |s|
    ensures i <= n <= |s|
    ensures forall k :: i <= k < n ==> IsSpace(s[k])
    ensures n == |s| || !IsSpace(s[n])
    decreases |s| - i
  {
    if i < |s| && IsSpace(s[i]) then SpaceRunEnd(s, i + 1) else i
  }

  /** The start of the whitespace run that ends at `j`, not going below `lo`. */
  function SpaceRunStart(s: string, lo: nat, j: nat): (n: nat)
    requires lo <= j <= |s|
    ensures lo <= n <= j
    ensures forall k :: n <= k < j ==> IsSpace(s[k])
    ensures n == lo || !IsSpace(s[n - 1])
    decreases j
  {
    if lo < j && IsSpace(s[j - 1]) then SpaceRunStart(s, lo, j - 1) else j
  }

  /** `r` is `s` with the whitespace run of length `i` cut from its front and another cut from its back. */
  predicate CutAt(s: string, r: string, i: int) {
    0 <= i <= |s| - |r| && r == s[i..i + |r|] && AllSpace(s[..i]) && AllSpace(s[i + |r|..])
  }

  /** `str.strip()`: the longest infix of `s` that neither starts nor ends with whitespace. */
  function Strip(s: string): (r: string)
    ensures |r| == 0 || (!IsSpace(r[0]) && !IsSpace(r[|r| - 1]))
    ensures exists i :: CutAt(s, r, i)
  {
    var i := SpaceRunEnd(s, 0);
    var j := SpaceRunStart(s, i, |s|);
    assert CutAt(s, s[i..j], i);
    s[i..j]
  }

  /** A string with no whitespace at either end is its own strip. */
  lemma StripUnchanged(s: string)
    requires |s| > 0 && !IsSpace(s[0]) && !IsSpace(s[|s| - 1])
    ensures Strip(s) == s
  {
  }

  // ---------------------------------------------------------------------------
  // Prefixes and substrings
  // ---------------------------------------------------------------------------

  /** `s.startswith(prefix)`. */
  predicate StartsWith(s: string, prefix: string) {
    prefix <= s
  }

  /** Python's `t in s` on strings: `t` occurs somewhere in `s` (the empty string occurs everywhere). */
  predicate Contains(s: string, t: string)
    decreases |s|
  {
    StartsWith(s, t) || (|s| > 0 && Contains(s[1..], t))
  }

  /** `t` occurs in `s` starting at index `i`. */
  predicate OccursAt(s: string, t: string, i: int) {
    0 <= i <= |s| - |t| && s[i..i + |t|] == t
  }

  /** `Contains` agrees with the positional definition of a substring. */
  lemma {:induction false} ContainsIff(s: string, t: string)
    ensures Contains(s, t) <==> exists i :: OccursAt(s, t, i)
    decreases |s|
  {
    if StartsWith(s, t) {
      assert OccursAt(s, t, 0);
    } else if |s| > 0 {
      ContainsIff(s[1..], t);
      if Contains(s[1..], t) {
        var i :| OccursAt(s[1..], t, i);
        assert s[i + 1..i + 1 + |t|] == s[1..][i..i + |t|];
        assert OccursAt(s, t, i + 1);
      } else {
        var u := s[1..];
        forall i | 1 <= i <= |s| - |t|
          ensures OccursAt(s, t, i) == OccursAt(u, t, i - 1)
        {
          assert s[i..i + |t|] == u[i - 1..i - 1 + |t|];
        }
        assert !OccursAt(s, t, 0);
      }
    }
  }

  // ---------------------------------------------------------------------------
  // Ordering (Python compares strings by code point, lexicographically)
  // ---------------------------------------------------------------------------

  predicate Less(a: string, b: string)
    decreases |a|
  {
    if |a| == 0 then |b| > 0
    else if |b| == 0 then false
    else a[0] < b[0] || (a[0] == b[0] && Less(a[1..], b[1..]))
  }

  predicate LessOrEqual(a: string, b: string) {
    a == b || Less(a, b)
  }

  lemma {:induction false} LessIrreflexive(a: string)
    ensures !Less(a, a)
    decreases |a|
  {
    if |a| > 0 {
      LessIrreflexive(a[1..]);
    }
  }

  lemma {:induction false} LessAsymmetric(a: string, b: string)
    requires Less(a, b)
    ensures !Less(b, a)
    decreases |a|
  {
    if |a| > 0 && |b| > 0 && a[0] == b[0] {
      LessAsymmetric(a[1..], b[1..]);
    }
  }

  lemma {:induction false} LessTransitive(a: string, b: string, c: string)
    requires Less(a, b) && Less(b, c)
    ensures Less(a, c)
    decreases |a|
  {
    if |a| > 0 && a[0] == b[0] && b[0] == c[0] {
      LessTransitive(a[1..], b[1..], c[1..]);
    }
  }

  /** Two different strings are always ordered one way or the other. */
  lemma {:induction false} LessTotal(a: string, b: string)
    requires a != b
    ensures Less(a, b) || Less(b, a)
    decreases |a|
  {
    if |a| > 0 && |b| > 0 && a[0] == b[0] {
      assert a == [a[0]] + a[1..] && b == [b[0]] + b[1..];
      LessTotal(a[1..], b[1..]);
    }
  }

  lemma LessOrEqualTransitive(a: string, b: string, c: string)
    requires LessOrEqual(a, b) && LessOrEqual(b, c)
    ensures LessOrEqual(a, c)
  {
    if a != b && b != c {
      LessTransitive(a, b, c);
    }
  }

  // ---------------------------------------------------------------------------
  // Splitting at separator characters
  // ---------------------------------------------------------------------------

  predicate FreeOf(s: string, isSep: char -> bool) {
    forall k :: 0 <= k < |s| ==> !isSep(s[k])
  }

  /**
   * The pieces between separator characters: one more piece than there are
   * separators, possibly empty (Python's `str.split(sep)` for one separator).
   */
  function Split(s: string, isSep: char -> bool): (r: seq<string>)
    ensures |r| >= 1
    ensures forall i :: 0 <= i < |r| ==> FreeOf(r[i], isSep)
    decreases |s|
  {
    if s == [] then [[]]
    else
      var rest := Split(s[1..], isSep);
      if isSep(s[0]) then [[]] + rest
      else [[s[0]] + rest[0]] + rest[1..]
  }

  /** The pieces glued back together with `sep` between neighbours. */
  function Join(pieces: seq<string>, sep: char): string
    requires |pieces| >= 1
    decreases |pieces|
  {
    if |pieces| == 1 then pieces[0] else pieces[0] + [sep] + Join(pieces[1..], sep)
  }

  lemma {:induction false} SplitPieceThenSeparator(a: string, sep: char, rest: string, isSep: char -> bool)
    requires FreeOf(a, isSep) && isSep(sep)
    ensures Split(a + [sep] + rest, isSep) == [a] + Split(rest, isSep)
    decreases |a|
  {
    if a == [] {
      assert a + [sep] + rest == [sep] + rest;
      assert ([sep] + rest)[1..] == rest;
    } else {
      SplitPieceThenSeparator(a[1..], sep, rest, isSep);
      assert (a + [sep] + rest)[1..] == a[1..] + [sep] + rest;
      assert [a[0]] + a[1..] == a;
    }
  }

  lemma {:induction false} SplitFree(a: string, isSep: char -> bool)
    requires FreeOf(a, isSep)
    ensures Split(a, isSep) == [a]
    decreases |a|
  {
    if a != [] {
      SplitFree(a[1..], isSep);
      assert [a[0]] + a[1..] == a;
    }
  }

  /** Splitting undoes joining when no piece holds a separator. */
  lemma {:induction false} SplitJoin(pieces: seq<string>, sep: char, isSep: char -> bool)
    requires |pieces| >= 1 && isSep(sep)
    requires forall i :: 0 <= i < |pieces| ==> FreeOf(pieces[i], isSep)
    ensures Split(Join(pieces, sep), isSep) == pieces
    decreases |pieces|
  {
    if |pieces| == 1 {
      SplitFree(pieces[0], isSep);
    } else {
      SplitJoin(pieces[1..], sep, isSep);
      SplitPieceThenSeparator(pieces[0], sep, Join(pieces[1..], sep), isSep);
      assert pieces == [pieces[0]] + pieces[1..];
    }
  }
}

=== FILE: wrappers.dfy ===
/** Option and Result values used for the absent-value and error paths of the model. */
module Wrappers {

  /** A value that may be missing (Python's `None`). */
  datatype Option<+T> = None | Some(value: T) {

    /** The value, or `default` when there is none (Python's `dict.get(key, default)`). */
    function GetOr(default: T): T {
      match this
      case Some(v) => v
      case None => default
    }
  }

  /** The outcome of an operation that either succeeds or raises an error. */
  datatype Result<+R, +E> = Success(value: R) | Failure(error: E)
}
